=== FILE: README.md ===
# Storefront order and inventory core, in Dafny

This project models the server side of a small coffee storefront. It also
models two pieces of client and middleware logic that sit next to it.

- **Orders** (module `Orders`). Three order handlers work on a product
  catalogue and an `orders`/`order_items` database:
  - the serverless `create` / `verify-payment` pair: a pending order is
    written, then completed and taken out of stock once PayPal reports the
    payment COMPLETED;
  - the one-shot `process-payment` handler: it writes a completed order and
    takes its stock in one transaction;
  - the Express router in `routes/orders.js`, with its create, verify and
    look-up routes.
- **Catalogue** (module `Catalog`): the product listing, lookup by id, and the
  two stock-update endpoints. One sits behind the admin guard and the stock
  validator. The serverless one has neither.
- **Schema set-up** (module `Setup`): table creation and seeding for Postgres
  and for the embedded SQLite database, and the `shipping_amount` migration,
  both as an endpoint and as a script.
- **Request validation** (module `Validation`): the order, payment and
  stock-update rules, and the HTML-stripping sanitiser.
- **Validator text forms** (module `Forms`): the validators read every field
  as text, so the integer rule is the pattern `[-+]?[0-9]+` and the number
  rule is an optional sign, digits with an optional fraction, and an
  optional exponent.
- **CSRF middleware** (module `Csrf`): the token table, the accept/reject
  decision, token issuing, expiry and the periodic purge.
- **Market-day calendar** (module `Calendar`): weekday computation, an
  administrator toggling Saturdays, month navigation, month lengths under the
  Gregorian leap rule, and cell classes.

The serverless handlers under `api/` use Postgres, and the Express routes use
an embedded SQLite file. Both have the same tables, and the model gives both
the same abstract database. Properties that chain two handlers chain handlers
of the same backend.

The database is one immutable value, `Store.Store`:
- products are a sequence in insertion order, so "the first matching row" is well defined;
- orders are a map from order id;
- order items are a sequence.

Every handler is a pure function from a store and a request to a
`Reply(store', response)`. A rolled-back transaction returns the store it was
given.

Things the handlers get from outside are parameters:
- the fresh order id;
- the clock (`now`);
- the PayPal answer (`ProviderStatus(status)` or `ProviderError`);
- whether a database statement fails (`fault`, `fail`), including a failure
  after COMMIT (`afterCommitFault`);
- fresh CSRF tokens and session ids.

Money is in integer cents: a seeded coffee costs 2200 and default shipping is 500.

`Store.WellFormed` collects the invariants every handler keeps:
- product ids are unique and below the id sequence;
- every order item belongs to an existing order;
- an order's recorded total is its item rows' cost (shipping is stored apart and not added);
- an order is completed exactly when it has a completion time;
- an order carries a shipping amount exactly when the schema has the column, which exists only on an `orders` table.

`OrderProperties` proves these invariants for every handler, and relates the
handlers to one another.

Where the code and its description disagree, the model follows the code. The
verify handler is a case of this. It decrements stock by the quantity of the
*first* order item per product (`FirstQty`), not by the sum over the order.
`OrderProperties.VerifyCountsFirstItemOnly` shows that this differs from
process-payment when an order names a product twice.

## Model

| member | source | states |
|---|---|---|
| Store.ItemsOf | api/orders/verify-payment.js:91-99 | The rows selected for an order are exactly the stored rows with that order id; `ItemsOfCounts` gives how often each one is selected. |
| Store.ItemsOfCounts | routes/orders.js:196-207 | Selecting an order's rows keeps each such row as many times as it is stored and drops every row of other orders. |
| Store.ToItems | api/orders/create.js:63-74 | One `order_items` row per resolved line, each carrying that line's product id, name snapshot, quantity and price. |
| Store.ItemsOfAppend | routes/orders.js:193-222 | Selecting an order's rows distributes over appending rows. |
| Store.ItemsCostAppend | api/orders/create.js:63-74 | The cost of rows distributes over appending rows. |
| Store.ToItemsCost | api/orders/create.js:36-74 | The rows written for an order cost exactly the subtotal the handler computed from its lines. |
| Store.ItemsOfToItems | api/orders/create.js:63-74 | Selecting any order's rows out of one order's freshly written rows gives all of them for that order and none for another. |
| Store.ItemsOfNone | routes/orders.js:193-222 | An order with no rows stored selects no rows. |
| Orders.FindAvailable | api/orders/create.js:36-60 | The first product row with the requested name and enough stock, or none if there is no such row. |
| Orders.ResolveMeaning | api/orders/create.js:36-60 | A line resolves exactly when some row by that name has enough stock. It then carries the id, name and price of such a row and the requested quantity. |
| Orders.Reserve | api/orders/create.js:36-60 | Reservation succeeds exactly when every requested item resolves, giving one line per item. Otherwise it names the first item that does not resolve. |
| Orders.Place | api/orders/create.js:63-74 | Writing an order adds exactly that key, leaves other orders, products and schema unchanged, and appends the order's rows. |
| Orders.DecrementLinesSpec | api/orders/process-payment.js:147-152 | After the per-line decrements, every product row has lost the total quantity the lines order of its id. |
| Orders.FirstItem | api/orders/verify-payment.js:80-86 | The first stored row of the order for the product, or none when the order has no such row. |
| Orders.VerifyDecrement | api/orders/verify-payment.js:80-86 | The verification stock update keeps the number of product rows, and each product loses the quantity of the first row of the order that names it, or nothing when no row does. |
| Orders.VerifyDecrementTakesFirstRow | routes/orders.js:156-164 | A product that no row of the order names keeps its row unchanged. A product the order names loses exactly the quantity of the first row naming it, as the scalar subquery reads it. |
| Orders.CompleteOrder | api/orders/verify-payment.js:74-77 | Only the named order changes: it becomes completed, with the PayPal id and completion time. A missing order changes nothing. |
| Orders.PlaceAdds | api/orders/create.js:63-82 | `Place` produces a store in which the new order is present with the given fields and its rows record its lines. |
| Orders.CreateOrder | api/orders/create.js:10-87 | OPTIONS gets a preflight and other non-POST methods get 405. A missing or empty item list gets 400. A missing products table gets 500 "Failed to create order". An unavailable item gets 400 naming the first such item, whatever the other tables. A write failure, a missing orders or order_items table, or a missing email or name gets 500. Any failure leaves the store as it was. A POST succeeds exactly when the transaction commits; the store then holds a pending order whose total is the items' subtotal, and the response announces that total. |
| Orders.VerifyPayment | api/orders/verify-payment.js:37-109 | A status other than COMPLETED gets 400 "Payment not completed". A PayPal error gets 500 "Failed to verify payment". A COMPLETED payment whose transaction does not commit gets the same 500. These failures leave the store unchanged. On commit the order is completed and stock is taken, and the answer is 200, or the same 500 when a failure follows COMMIT. |
| Orders.QtyForRows | api/orders/process-payment.js:133-152 | The quantity the decrement loop takes per product is what the rows just written order of it. |
| Orders.PlaceAndTake | api/orders/process-payment.js:133-152 | Writing a completed order and then decrementing its lines adds exactly that order, and takes from each product what the new rows order of it. |
| Orders.ProcessPayment | api/orders/process-payment.js:76-176 | A missing or empty item list gets 400, and so does a missing customer name or email. A missing products table gets 500 "Failed to process payment". An unavailable item gets 400 naming it. A failing write or a missing table after that gets the same 500. Every failure before COMMIT leaves the store unchanged. On commit, the store holds a completed order, every product has lost exactly what the new rows order of it, and the answer is 200 with the order id, or 500 when a failure follows COMMIT. |
| Orders.RouteCreate | routes/orders.js:35-115 | An empty item list gets 400. A missing products table gets 500 "Failed to create order". An unavailable item gets 400 naming it, whether or not the orders table exists. A failing order insert, including a missing orders table, gets 500. Otherwise it answers 200 with the order id and its subtotal. With an order_items table, the store holds the pending order and its rows. Without one, the order is stored and no rows are. |
| Orders.RouteVerify | routes/orders.js:118-190 | A PayPal error gets 500 "Failed to verify payment". A status other than COMPLETED gets 400. A failing status update, including a missing orders table, gets 500 "Failed to update order" and changes nothing. Otherwise the answer is 200 and the order is completed. Stock is taken when its update runs; a failing stock update or a missing products or order_items table is not reported and leaves stock unchanged. |
| Orders.GetOrder | routes/orders.js:193-222 | A read failure, or a missing orders or order_items table, gets 500 "Failed to fetch order". Otherwise the answer is 404 exactly when the order is absent. On 200, the order is returned with one item object per row of the order, holding its name, quantity and price. An order without rows gets the single all-null object the LEFT JOIN produces, and only then. |
| Orders.ItemsColumn | routes/orders.js:196-207 | The joined items of an order with no rows are the one all-null object; otherwise there is one object per row, in step with the rows. |
| OrderProperties.PlaceKeepsWellFormed | api/orders/create.js:63-74 | Writing a new order with its rows keeps every store invariant. |
| OrderProperties.TotalAfterPlace | api/orders/create.js:63-74 | After an order's rows are appended, every order's stored total still equals the cost of its rows. |
| OrderProperties.CompleteKeepsWellFormed | api/orders/verify-payment.js:74-77 | Completing an order keeps every store invariant. |
| OrderProperties.CreateOrderKeepsWellFormed | api/orders/create.js:34-87 | The serverless create keeps the store invariants. |
| OrderProperties.RouteCreateKeepsWellFormed | routes/orders.js:35-115 | The router's create keeps the store invariants whenever the order_items table exists or the answer is not 200. |
| OrderProperties.RouteCreateWithoutItemsTable | routes/orders.js:80-107 | Without an order_items table the route still answers 200 with the order's total, and the stored order then has no rows, so its total no longer matches them. |
| OrderProperties.VerifyPaymentKeepsWellFormed | api/orders/verify-payment.js:71-109 | Payment verification keeps the store invariants. |
| OrderProperties.RouteVerifyKeepsWellFormed | routes/orders.js:118-190 | The router's verify keeps the store invariants. |
| OrderProperties.ProcessPaymentKeepsWellFormed | api/orders/process-payment.js:104-176 | The one-shot payment handler keeps the store invariants. |
| OrderProperties.CreateThenGetOrder | routes/orders.js:35-222 | After the router's create succeeds with an order_items table, the router's lookup returns the order pending, with the customer's email, the announced total, and one item object per row written, with no all-null object. |
| OrderProperties.VerifyUnknownOrderChangesNothing | api/orders/verify-payment.js:71-104 | Verifying an order id that does not exist changes nothing, yet still reports success. |
| OrderProperties.VerifyTwiceDecrementsTwice | api/orders/verify-payment.js:71-88 | A second successful verification of the same order takes its stock a second time. |
| OrderProperties.FirstQtyDistinct | api/orders/verify-payment.js:80-86 | When an order names each product at most once, the first-row quantity is the whole quantity. |
| OrderProperties.SameDecrement | api/orders/verify-payment.js:80-86 | On an order's freshly written rows with no product repeated, the verification update takes the same stock as the per-line loop of process-payment. |
| OrderProperties.ProtocolsAgree | api/orders/process-payment.js:104-154 | Create followed by a successful verify yields the same store as process-payment, except for the completion time. This holds when no product is ordered twice. |
| OrderProperties.VerifyCountsFirstItemOnly | api/orders/verify-payment.js:80-86 | A concrete order listing one product twice loses only the first quantity under verify. |
| OrderProperties.ProcessPaymentKeepsStock | api/orders/process-payment.js:104-152 | When an order names each product once and stock is non-negative, stock stays non-negative after process-payment. |
| OrderProperties.ProcessPaymentOversells | api/orders/process-payment.js:104-152 | The availability check looks at each item alone, so two items of the same product can drive its stock below zero. |
| Catalog.InStock | routes/products.js:8-16 | The listing holds exactly the rows with positive stock. |
| Catalog.FindId | routes/products.js:19-34 | The first row with the id, or none when no row has it. |
| Catalog.SetStockRows | routes/products.js:45-47 | Rows with the id get the new stock. All other rows are unchanged. |
| Catalog.ListProducts | routes/products.js:8-16 | 200 with the in-stock rows unless the read fails; the store never changes. |
| Catalog.GetProduct | routes/products.js:19-34 | A read failure or a missing products table gets 500. Otherwise 404 exactly when no row has the id, and 200 with the first row that has it. |
| Catalog.RouteSetStock | routes/products.js:37-61 | Callers who are not admins get 401 or 403. A quantity whose text is not an integer from 0 to 10000 gets 400 with the validator's error. A failing write or a missing table gets 500, and an unknown id 404. The update succeeds exactly when the guard, the validator, the database and the id all allow it. It then sets exactly that product's stock to the integer the text spells. |
| Catalog.RouteAcceptsNumericText | routes/products.js:37-61 | An administrator who sends the stock as decimal text such as "5" gets 200, and the product's stock becomes that integer. |
| Catalog.ApiProducts | api/products.js:1-47 | OPTIONS gets a preflight and unlisted methods get 405. GET answers 200 with the in-stock rows unless the read fails. A negative stock gets 400. A failing write, a stock past the 32-bit `integer` range, or an `id` whose text is not a 32-bit integer, gets 500. A missing or unknown id gets 404. A PUT succeeds exactly when the stock fits the column, the id exists and the write succeeds, with no admin check. |
| Catalog.ApiRejectsNonIntegerId | api/products.js:20-45 | An `id` of "abc", or one past the 32-bit range, gets 500 "Internal server error" and changes nothing. |
| Catalog.ApiRejectsOversizedStock | api/products.js:25-45 | A stock of 2147483648 gets 500 "Internal server error" whatever the id, and changes nothing. 2147483647 gets no 500 unless the id text is not an integer. |
| Catalog.RouteNegativeCheckUnreachable | routes/products.js:41-43 | The route's own negative-stock check can never fire, because the validator rejects negatives first. |
| Catalog.ApiSkipsAdminCheck | api/products.js:20-39 | An anonymous caller can set stock through the serverless endpoint, while the route rejects it with 401. |
| Catalog.SetStockThenGet | routes/products.js:19-61 | After a successful stock update through the route, looking the product up returns the stock the text spelled. |
| Catalog.SetStockThenList | api/products.js:13-39 | After a successful serverless stock update, the serverless listing shows the product exactly when the new stock is positive. |
| Catalog.ListedExactlyWhenInStock | routes/products.js:8-16 | When ids are unique, a product appears in the in-stock listing exactly when its row has positive stock. |
| Setup.SeedRows | lib/db.js:78-122 | Five rows, one per seeded coffee in order, priced 22.00 with stock 100 and consecutive ids. |
| Setup.SeedIfEmpty | database/init.js:53-95 | Seeding happens exactly when the products table is empty. |
| Setup.AddShippingColumn | lib/db.js:44-62 | Adding the column gives every existing order the default shipping amount and changes nothing else. |
| Setup.NullShipping | api/migrate-db.js:32-36 | The orders with no shipping amount. |
| Setup.BackFill | api/migrate-db.js:32-36 | Orders without a shipping amount get the default. The reported count is the number of such orders. |
| Setup.InitPostgres | lib/db.js:15-126 | With no failure, all tables exist with the shipping column, and products are seeded if the table was empty. A failure at the first statement changes nothing. |
| Setup.InitSqlite | database/init.js:7-97 | All tables exist, and products are seeded if empty. The shipping column is present only if an existing orders table already had it. |
| Setup.Migrate | api/migrate-db.js:14-36 | A present column is reported and left alone. A failing column check, or a failing ALTER or missing orders table, fails with the store unchanged. A failing back-fill fails after the column was added. Otherwise the column is added, with the default for every existing order. Products and items never change. |
| Setup.MigrateDb | api/migrate-db.js:4-62 | Non-POST gets 405. A failure before the column is added gets 500 "Migration failed" with the store unchanged. A failure after it gets the same 500 and keeps the column with its defaults. A successful run that adds the column answers 200 reporting zero updated orders, and the store is then exactly the old one with the column added and every order given the default. A run that finds the column answers 200 and changes nothing. Products and items never change. |
| Setup.FixDatabase | fix-database.js:20-53 | A present column is left alone. A missing one is added, every order gets the default shipping amount of 500 cents, and nothing else changes. A failure before the ALTER changes nothing; a failure after it keeps the column. |
| Setup.InitPostgresIdempotent | lib/db.js:15-122 | Initialising twice is the same as initialising once. |
| Setup.InitSqliteIdempotent | database/init.js:7-97 | Initialising twice is the same as initialising once. |
| Setup.MigrateIdempotent | api/migrate-db.js:14-53 | A second migration finds the column and changes nothing. |
| Setup.FixDatabaseIdempotent | fix-database.js:20-48 | Running the script twice is the same as running it once. |
| Setup.MigrationUpdatesNoOrders | api/migrate-db.js:24-47 | The back-fill never updates an order, because adding the column already stored the default in every row. |
| Setup.BackFillAfterAlter | api/migrate-db.js:24-36 | Right after the column is added, the back-fill changes nothing and reports zero rows. |
| Setup.AddShippingColumnKeepsWellFormed | lib/db.js:44-62 | Adding the column keeps the store invariants. |
| Setup.SeedKeepsWellFormed | lib/db.js:78-122 | Seeding keeps the store invariants. |
| Setup.CreateTablesKeepsWellFormed | lib/db.js:15-76 | Creating missing tables keeps the store invariants. |
| Setup.InitPostgresKeepsWellFormed | lib/db.js:15-126 | Initialisation keeps the store invariants, whichever statement fails. |
| Setup.InitSqliteKeepsWellFormed | database/init.js:7-97 | The embedded initialisation keeps the store invariants. |
| Setup.MigrateKeepsWellFormed | api/migrate-db.js:14-62 | The migration keeps the store invariants, whichever step fails. |
| Setup.InitFromEmpty | lib/db.js:15-122 | From an empty database, initialisation yields exactly the five seeded products and no orders. |
| Validation.TrimSpec | middleware/validation.js:29-31 | Trimming removes exactly the leading and trailing white space, keeping the middle intact. |
| Validation.TrimIdempotent | middleware/validation.js:29-31 | Trimming a trimmed string changes nothing. |
| Validation.StripTagsSpec | middleware/validation.js:18-22 | No `<` survives tag stripping. A string without `<` is unchanged. |
| Validation.StripTagsDropsTag | middleware/validation.js:18-22 | A tag is dropped with its brackets, and the text before and after it is kept. |
| Validation.SkipTagThrough | middleware/validation.js:18-22 | Skipping a tag resumes right after its closing `>`. |
| Validation.SanitizeKeepsText | middleware/validation.js:18-22 | Sanitising "a<b>c" gives "ac". |
| Validation.SanitizeInput | middleware/validation.js:18-22 | A missing value stays missing. A present value is stripped of tags and trimmed; text without `<` is only trimmed. |
| Validation.SanitizeInputCleans | middleware/validation.js:18-22 | A sanitised string has no `<` and no outer white space. |
| Validation.SanitizeIdempotent | middleware/validation.js:18-22 | Sanitising twice is sanitising once. |
| Validation.ItemViolations | middleware/validation.js:26-35 | Reports exactly the item-list, product-name and quantity rules the items break. A quantity passes when its text is an integer from 1 to 100. |
| Validation.CustomerViolations | middleware/validation.js:36-46 | Reports exactly the email and name rules the text forms of the customer fields break. |
| Validation.ValidateOrder | middleware/validation.js:25-48 | Reports exactly the order rules the request breaks, reading every field as its text. |
| Validation.ValidatePayment | middleware/validation.js:51-82 | Reports exactly the order rules plus the PayPal-id and shipping-cost rules the request breaks. A present shipping cost passes when its text is a number from 0 to 100. |
| Validation.ValidateStockUpdate | middleware/validation.js:85-90 | No error exactly when the quantity's text is an integer from 0 to 10000. Otherwise the one stock error. |
| Validation.HandleValidationErrors | middleware/validation.js:9-15 | The request proceeds exactly when there are no errors; otherwise all of them are returned with 400. |
| Validation.ValidOrderBreaksNoRule | middleware/validation.js:25-48 | A request satisfying the order rules breaks none of them. |
| Validation.InvalidOrderBreaksSomeRule | middleware/validation.js:25-48 | A request violating the order rules breaks one that can be named. |
| Validation.ValidateOrderAccepts | middleware/validation.js:25-48 | The order validator lets a request through exactly when it satisfies every rule. |
| Validation.ValidatePaymentAccepts | middleware/validation.js:51-82 | The payment validator lets a request through exactly when it satisfies every order and payment rule. |
| Validation.NameLengthCheckedBeforeSanitising | middleware/validation.js:41-46 | The name length is checked before tags are stripped, so a name that is too short after sanitising still passes. |
| Validation.NumericStringsAccepted | middleware/validation.js:33-88 | A number sent as its decimal text passes the integer and number rules like the number itself: "5" is a valid stock quantity and "2.50" a valid shipping cost. |
| Validation.StockRuleRejects | middleware/validation.js:85-88 | "10001", "5.0" and a missing quantity each get the one stock error. |
| Validation.NumericNameBreaksOnlyCharacterRule | middleware/validation.js:41-46 | A name sent as the number 42 is read as the text "42": its length passes and only the character rule fails. |
| Forms.DigitsText | middleware/validation.js:33-35 | The decimal text of a natural number is a non-empty run of digits without a leading zero that spells that number. |
| Forms.IntText | middleware/validation.js:33-35 | The text of any integer passes the integer pattern and reads back as that integer. |
| Forms.LenientIntForms | middleware/validation.js:33-35 | The integer rule accepts a sign and leading zeros ("+007" is 7, "-0" is 0) and rejects "5.0", "" and " 5". |
| Forms.IntIsFloat | middleware/validation.js:77-80 | Text the integer rule accepts is also a number for the number rule, with the same value. |
| Forms.IntTextIsFloat | middleware/validation.js:77-80 | The text of any integer reads as that number under the number rule. |
| Forms.FloatFraction | middleware/validation.js:77-80 | "2.50" reads as 2.5. |
| Forms.FloatExponent | middleware/validation.js:77-80 | "1e2" reads as 100. |
| Forms.FloatNeedsDigits | middleware/validation.js:77-80 | ".", "-" and "e5" are not numbers. |
| Csrf.ContainsFrom | middleware/csrf.js:14 | The substring search finds exactly the positions where the pattern occurs. |
| Csrf.Check | middleware/csrf.js:12-34 | GET and webhook requests pass. A missing session or token gets 403 "CSRF token missing". Any other request passes exactly when the session holds a non-empty token equal to the presented one. |
| Csrf.IssueToken | middleware/csrf.js:37-49 | The request's session, or a fresh one when it has none, now maps to the fresh token. The response carries both. |
| Csrf.Expire | middleware/csrf.js:43 | The session's entry is removed and every other entry is kept. |
| Csrf.Purge | middleware/csrf.js:52-57 | A table holding more than 1000 tokens is emptied; a smaller one is kept as it is. |
| Csrf.IssueThenCheck | middleware/csrf.js:12-49 | A token just issued for a session is accepted for that session. |
| Csrf.ReissueRevokes | middleware/csrf.js:12-49 | Re-issuing a session's token makes the previous token invalid. |
| Csrf.EarlierTimerExpiresReissuedToken | middleware/csrf.js:37-49 | The first token's expiry timer also removes a token re-issued later for the same session. |
| Csrf.PurgeRejectsEverything | middleware/csrf.js:52-57 | After an over-full table is purged, every checked request is rejected. |
| Calendar.Weekday | components/Calendar.js:36-38 | A day of the week in 0..6. |
| Calendar.EpochIsThursday | components/Calendar.js:36-38 | 1 January 1970 is a Thursday, the weekday `getDay()` gives day zero. |
| Calendar.ConsecutiveWeekdays | components/Calendar.js:36-38 | Two consecutive days fall on consecutive weekdays, Saturday being followed by Sunday. |
| Calendar.DaysInMonth | components/Calendar.js:28-34 | The day count of a month, taken as the day before the next month's first, is its Gregorian length and lies between 28 and 31. |
| Calendar.MarchToMarch | components/Calendar.js:28-34 | One March 1 is 366 days after the previous one exactly when its year is a leap year, and 365 days after it otherwise. |
| Calendar.FebruaryLength | components/Calendar.js:28-34 | February has 29 days in a leap year and 28 otherwise. |
| Calendar.MonthStartStep | components/Calendar.js:28-34 | Each month starts its Gregorian length in days after the start of the month before. |
| Calendar.MonthEndRunsOn | components/Calendar.js:28-38 | The day after a month's last day is the first of the next month, one weekday later. |
| Calendar.NextMonthFirstDay | components/Calendar.js:28-34 | The next month's first weekday is this month's first weekday moved on by this month's day count. |
| Calendar.LeapYears | components/Calendar.js:28-34 | February has 29 days in 2024 and 2000, and 28 in 1900 and 2025. |
| Calendar.Unselect | components/Calendar.js:58-63 | Every entry for the day is filtered out and all others are kept. |
| Calendar.HandleDateClick | components/Calendar.js:48-67 | Only an administrator's click on a Saturday changes the selection. It flips whether that day is selected and leaves every other day as it was. |
| Calendar.ChangeMonth | components/Calendar.js:69-72 | Gives the first of the month `increment` months away, with the month normalised to 0..11 and the year carried. |
| Calendar.DayClass | components/Calendar.js:89-93 | "at-market" for selected Saturdays, "saturday" for the other Saturdays, and empty for other days. |
| Calendar.ClickTwice | components/Calendar.js:48-67 | Two clicks on the same day restore the set of market days. When the day was not selected, they restore the list exactly. |
| Calendar.UnselectAppended | components/Calendar.js:58-63 | Filtering out a day just appended to a selection that lacked it gives the selection back. |
| Calendar.ClickFlipsClass | components/Calendar.js:48-93 | An administrator's click on a Saturday flips its cell between "saturday" and "at-market" and keeps every other cell's class. |
| Calendar.ChangeMonthCompose | components/Calendar.js:69-72 | Moving `a` months and then `b` months equals moving `a + b` months. |
| Calendar.DecemberRollsOver | components/Calendar.js:69-72 | The month after December is January of the next year. |
| Calendar.WeekLater | components/Calendar.js:36-38 | A day and the day a week later share a weekday, across month ends too. |
| Calendar.KnownSaturday | components/Calendar.js:36-38 | 7 June 2025 is a Saturday and 8 June 2025 is not. |
| Calendar.LeapDay | components/Calendar.js:36-38 | 2024 has a 29 February, followed by 1 March, a Friday. |

## Left out

- The PayPal API call is not modelled: its answer is the `ProviderAnswer` parameter, and authentication and HTTP errors all map to `ProviderError`.
- Confirmation and admin e-mails are not modelled. They are sent after COMMIT and their failure is logged only.
- `uuidv4()`, the clock and `crypto.randomBytes` are not modelled; their values are parameters.
- Concurrency is not modelled. Each handler runs alone against one store, so interleaved transactions and the race between availability check and decrement are not covered.
- DECIMAL and JavaScript floating-point arithmetic are not modelled. Prices and totals are integer cents, and `parseFloat` rounding is not represented.
- The `isEmail`/`normalizeEmail` validators and DOMPurify are simplified. The model uses an email shape check and a tag stripper that drops every `<...>` run.
- Validation.SanitizeInput: HTML entities and malformed markup are not handled as DOMPurify handles them; only tag removal and trimming are modelled.
- Request fields are taken in their string form, as the validators read them: a field is missing or its text. How JavaScript turns a number into text is not modelled, and arrays and objects in a field are not modelled.
- Forms.ParseFloat: reads the number rule's value with exact decimal arithmetic, so double rounding and overflow to infinity are not modelled.
- Database errors are one `fault` parameter per handler. In the order handlers it strikes the writes after the availability checks, so a failing availability `SELECT` is not modelled on its own. A missing table makes each statement that uses it fail.
- OrderProperties.RouteCreateKeepsWellFormed: does not cover a 200 answer when the order_items table is missing. The route then stores an order without its rows, which breaks the totals invariant; RouteCreateWithoutItemsTable shows it.
- Orders.RouteVerify: a failing stock update is logged and not reported. The model answers 200 and leaves stock unchanged, as the route does.
- Catalog.ApiProducts: takes the PUT body's `stock_quantity` as an integer. Non-numeric and missing values, which the database would reject or coerce, are not modelled. Postgres also accepts white space around the `id` text; the model rejects it.
- Setup.MigrateDb: the 500 body omits the `details` field carrying the error message.
- Orders.ProcessPayment: the 500 response text omits the error message that the handler appends to it.
- Setup.InitPostgres: a failure in the middle of the seed inserts, which would leave some seed rows written, is not modelled. Seeding is all or nothing.
- Orders.RouteCreate: the item inserts run without a transaction and their errors are not checked. The model covers the missing order_items table. It does not cover other faults of single item inserts, which would leave some of an order's rows written and others not.
- `middleware/auth.js` (JWT signing and verification, login) is not part of this model. The admin guard's outcome is the `AdminAuth` parameter.
- Orders.VerifyDecrement: on Postgres, `UPDATE ... FROM` takes an unspecified matching item row when an order lists a product twice. The model takes the first row, as the SQLite scalar subquery does.
- Orders.GetOrder: `GROUP_CONCAT` returns the item objects as one comma-joined text in no fixed order. The model gives them as a list in stored order, and promises no order beyond that.
- Calendar: the grid rendering, `localStorage` persistence and the admin-login event listener are not modelled. Dates are compared by their year, month and day fields, which matches the source for the normalised dates the grid creates.
- Csrf: the expiry timer and the hourly purge are not scheduled; they are the functions `Expire` and `Purge`, applied when they fire.
- String lengths are counted in characters of `seq<char>`, not in UTF-16 code units.

=== FILE: calendar.dfy ===
/** The market-day calendar: which Saturdays are marked as market days, how
    an administrator's click toggles a day, month navigation, and the class a
    day cell is rendered with. Dates are (year, month 0..11, day) triples as
    JavaScript's `Date` constructor takes them; the grid builds every day it
    shows from such a triple. */
module Calendar {

  datatype CalDate = CalDate(year: int, month: int, day: int)

  /** Days from 1970-01-01 to the first of month `m` (1..12) of year `y0`
      in the proleptic Gregorian calendar (the days-from-civil algorithm:
      years are counted from March, in 400-year eras of 146097 days). */
  function FirstOfMonth(y0: int, m: int): int {
    var y := if m <= 2 then y0 - 1 else y0;
    var era := y / 400;
    var yoe := y % 400;
    var mp := if m > 2 then m - 3 else m + 9;
    var doe := yoe * 365 + yoe / 4 - yoe / 100 + (153 * mp + 2) / 5;
    era * 146097 + doe - 719468
  }

  /** Days from 1970-01-01 to the first day of the month with index
      `months` = year * 12 + month, months being counted from 0 in year 0. */
  function MonthStart(months: int): int {
    FirstOfMonth(months / 12, months % 12 + 1)
  }

  /** Days since 1970-01-01 of (year, month, day), with months and days
      outside their usual range carried over the way the `Date` constructor
      carries them. The year is taken as it is: the constructor would read
      years 0 to 99 as 1900 to 1999. The model does not apply that mapping,
      since the grid's years come from `getFullYear()` of present-day dates. */
  function DaysSinceEpoch(d: CalDate): int {
    MonthStart(d.year * 12 + d.month) + (d.day - 1)
  }

  /** `getDay()`: 0 for Sunday through 6 for Saturday. */
  function Weekday(d: CalDate): (w: int)
    ensures 0 <= w < 7
  {
    (DaysSinceEpoch(d) + 4) % 7
  }

  /** The Gregorian leap-year rule. */
  predicate IsLeapYear(y: int) {
    y % 4 == 0 && (y % 100 != 0 || y % 400 == 0)
  }

  /** The length of month `month` (0..11) of `year` in the Gregorian calendar. */
  function MonthLength(year: int, month: int): int
    requires 0 <= month < 12
  {
    if month == 1 then (if IsLeapYear(year) then 29 else 28)
    else if month == 3 || month == 5 || month == 8 || month == 10 then 30
    else 31
  }

  /** `getDaysInMonth`'s `daysInMonth`: `new Date(year, month + 1, 0)` is the
      day before the first of the next month, and its `getDate()` counts it
      from the first of this month. The month follows the Gregorian rules. */
  function DaysInMonth(current: CalDate): (n: int)
    ensures n == MonthLength((current.year * 12 + current.month) / 12, (current.year * 12 + current.month) % 12)
    ensures 28 <= n <= 31
  {
    var k := current.year * 12 + current.month;
    MonthStartStep(k);
    MonthStart(k + 1) - MonthStart(k)
  }

  /** `getDaysInMonth`'s `firstDayOfMonth`: the weekday of the first. */
  function FirstDayOfMonth(current: CalDate): (w: int)
    ensures 0 <= w < 7
  {
    Weekday(CalDate(current.year, current.month, 1))
  }

  predicate IsSaturday(d: CalDate) {
    Weekday(d) == 6
  }

  /** Same day, month and year. */
  predicate IsSelected(selected: seq<CalDate>, d: CalDate) {
    d in selected
  }

  /** The selection with every entry for `d` filtered out, order kept. */
  function Unselect(selected: seq<CalDate>, d: CalDate): (r: seq<CalDate>)
    ensures forall x :: x in r <==> x in selected && x != d
    ensures |r| <= |selected|
    ensures d !in selected ==> r == selected
  {
    if selected == [] then []
    else if selected[0] == d then Unselect(selected[1..], d)
    else [selected[0]] + Unselect(selected[1..], d)
  }

  /** `handleDateClick`: only an administrator clicking a Saturday changes the
      selection; the click removes the day if it is selected and appends it
      otherwise. */
  function HandleDateClick(selected: seq<CalDate>, isAdmin: bool, d: CalDate): (r: seq<CalDate>)
    ensures !isAdmin || !IsSaturday(d) ==> r == selected
    ensures isAdmin && IsSaturday(d) ==> (IsSelected(r, d) <==> !IsSelected(selected, d))
    ensures forall x :: x != d ==> (x in r <==> x in selected)
    ensures isAdmin && IsSaturday(d) && !IsSelected(selected, d) ==> r == selected + [d]
  {
    if !isAdmin || !IsSaturday(d) then selected
    else if IsSelected(selected, d) then Unselect(selected, d)
    else selected + [d]
  }

  /** `changeMonth`: the first day of the month `increment` months away. */
  function ChangeMonth(current: CalDate, increment: int): (r: CalDate)
    ensures 0 <= r.month < 12 && r.day == 1
    ensures r.year * 12 + r.month == current.year * 12 + current.month + increment
  {
    var months := current.year * 12 + current.month + increment;
    CalDate(months / 12, months % 12, 1)
  }

  /** The class of a day cell in the grid. */
  function DayClass(selected: seq<CalDate>, d: CalDate): (c: string)
    ensures c == "at-market" <==> IsSaturday(d) && IsSelected(selected, d)
    ensures c == "saturday" <==> IsSaturday(d) && !IsSelected(selected, d)
    ensures c == "" <==> !IsSaturday(d)
  {
    if IsSaturday(d) then (if IsSelected(selected, d) then "at-market" else "saturday")
    else ""
  }

  // ---------------------------------------------------------------------------
  // Properties across calls

  /** Two clicks on the same day leave the set of market days as it was; when
      the day was not selected they restore the selection exactly. */
  lemma ClickTwice(selected: seq<CalDate>, isAdmin: bool, d: CalDate)
    ensures var twice := HandleDateClick(HandleDateClick(selected, isAdmin, d), isAdmin, d);
      forall x :: x in twice <==> x in selected
    ensures !IsSelected(selected, d) ==>
      HandleDateClick(HandleDateClick(selected, isAdmin, d), isAdmin, d) == selected
  {
    if isAdmin && IsSaturday(d) && !IsSelected(selected, d) {
      UnselectAppended(selected, d);
    }
  }

  /** Filtering out a day just appended to a selection that lacked it gives the
      selection back. */
  lemma {:induction false} UnselectAppended(selected: seq<CalDate>, d: CalDate)
    requires d !in selected
    ensures Unselect(selected + [d], d) == selected
  {
    if selected == [] {
    } else {
      assert (selected + [d])[1..] == selected[1..] + [d];
      UnselectAppended(selected[1..], d);
    }
  }

  /** An administrator's click on a Saturday flips its cell between the two
      Saturday classes; every other cell keeps its class. */
  lemma ClickFlipsClass(selected: seq<CalDate>, d: CalDate, other: CalDate)
    requires IsSaturday(d) && other != d
    ensures var after := HandleDateClick(selected, true, d);
      && (DayClass(selected, d) == "saturday" <==> DayClass(after, d) == "at-market")
      && DayClass(after, other) == DayClass(selected, other)
  {
  }

  /** Moving by `a` months and then by `b` months is moving by `a + b`. */
  lemma ChangeMonthCompose(current: CalDate, a: int, b: int)
    ensures ChangeMonth(ChangeMonth(current, a), b) == ChangeMonth(current, a + b)
  {
    var mid := ChangeMonth(current, a);
    assert mid.year * 12 + mid.month + b == current.year * 12 + current.month + (a + b);
  }

  /** December's next month is January of the following year. */
  lemma DecemberRollsOver(year: int, day: int)
    ensures ChangeMonth(CalDate(year, 11, day), 1) == CalDate(year + 1, 0, 1)
  {
  }

  /** A day and the day one week later fall on the same weekday, across month
      boundaries too. */
  lemma WeekLater(d: CalDate)
    ensures Weekday(CalDate(d.year, d.month, d.day + 7)) == Weekday(d)
    ensures IsSaturday(d) <==> IsSaturday(CalDate(d.year, d.month, d.day + 7))
  {
    var x := DaysSinceEpoch(d) + 4;
    assert DaysSinceEpoch(CalDate(d.year, d.month, d.day + 7)) + 4 == x + 7;
    WeekShift(x);
  }

  lemma WeekShift(x: int)
    ensures (x + 7) % 7 == x % 7
  {
  }

  /** Within one 400-year era, one more year of era adds 365 days, plus
      one when the year it completes is divisible by 4 but not by 100. */
  lemma EraYearStep(r: int)
    requires 0 <= r < 399
    ensures (r + 1) * 365 + (r + 1) / 4 - (r + 1) / 100 - (r * 365 + r / 4 - r / 100)
         == 365 + (if (r + 1) % 4 == 0 && (r + 1) % 100 != 0 then 1 else 0)
  {
    assert r == 4 * (r / 4) + r % 4;
    assert (r + 1) / 4 == r / 4 + (if (r + 1) % 4 == 0 then 1 else 0);
    assert r == 100 * (r / 100) + r % 100;
    assert (r + 1) / 100 == r / 100 + (if (r + 1) % 100 == 0 then 1 else 0);
    assert (r + 1) % 100 == 0 ==> (r + 1) % 4 == 0;
  }

  /** The remainders the leap rule reads are those of the year of era. */
  lemma LeapOfEraYear(q: int, r: int)
    requires 0 <= r < 400
    ensures (400 * q + r) % 400 == r
    ensures (400 * q + r) % 4 == r % 4
    ensures (400 * q + r) % 100 == r % 100
  {
    assert 400 * q + r == 400 * q + r % 400;
    assert 400 * q + r == 4 * (100 * q + r / 4) + r % 4;
    assert 400 * q + r == 100 * (4 * q + r / 100) + r % 100;
  }

  /** From one March 1 to the next there are 366 days exactly when the year
      the second one falls in is a leap year. */
  lemma MarchToMarch(y: int)
    ensures FirstOfMonth(y + 1, 3) - FirstOfMonth(y, 3) == if IsLeapYear(y + 1) then 366 else 365
  {
    var q, r := y / 400, y % 400;
    assert y == 400 * q + r;
    assert FirstOfMonth(y, 3) == q * 146097 + (r * 365 + r / 4 - r / 100) - 719468;
    if r == 399 {
      assert y + 1 == 400 * (q + 1) + 0;
      LeapOfEraYear(q + 1, 0);
      assert FirstOfMonth(y + 1, 3) == (q + 1) * 146097 - 719468;
    } else {
      assert y + 1 == 400 * q + (r + 1);
      LeapOfEraYear(q, r + 1);
      assert (y + 1) / 400 == q;
      assert FirstOfMonth(y + 1, 3) == q * 146097 + ((r + 1) * 365 + (r + 1) / 4 - (r + 1) / 100) - 719468;
      EraYearStep(r);
    }
  }

  /** February has 29 days in a leap year and 28 otherwise. */
  lemma FebruaryLength(y: int)
    ensures FirstOfMonth(y, 3) - FirstOfMonth(y, 2) == if IsLeapYear(y) then 29 else 28
  {
    MarchToMarch(y - 1);
    assert FirstOfMonth(y, 2) == FirstOfMonth(y - 1, 3) + 337;
  }

  /** Consecutive month indexes start as many days apart as the Gregorian
      length of the first month. */
  lemma MonthStartStep(k: int)
    ensures MonthStart(k + 1) - MonthStart(k) == MonthLength(k / 12, k % 12)
  {
    var y, m := k / 12, k % 12;
    if m < 11 {
      assert (k + 1) / 12 == y && (k + 1) % 12 == m + 1;
    } else {
      assert (k + 1) / 12 == y + 1 && (k + 1) % 12 == 0;
    }
    if m == 1 {
      FebruaryLength(y);
    }
  }

  /** Consecutive days fall on consecutive weekdays. */
  lemma ConsecutiveWeekdays(a: CalDate, b: CalDate)
    requires DaysSinceEpoch(b) == DaysSinceEpoch(a) + 1
    ensures Weekday(b) == (Weekday(a) + 1) % 7
  {
    var x := DaysSinceEpoch(a) + 4;
    assert Weekday(a) == x % 7 && Weekday(b) == (x + 1) % 7;
  }

  /** The day after the last of a month is the first of the next, so the
      weekday runs on across the month end. */
  lemma MonthEndRunsOn(current: CalDate)
    ensures var last := CalDate(current.year, current.month, DaysInMonth(current));
      var first := CalDate(current.year, current.month + 1, 1);
      && DaysSinceEpoch(first) == DaysSinceEpoch(last) + 1
      && Weekday(first) == (Weekday(last) + 1) % 7
  {
    var last := CalDate(current.year, current.month, DaysInMonth(current));
    var first := CalDate(current.year, current.month + 1, 1);
    assert DaysSinceEpoch(first) == DaysSinceEpoch(last) + 1 by {
      var k := current.year * 12 + current.month;
      assert current.year * 12 + (current.month + 1) == k + 1;
    }
    ConsecutiveWeekdays(last, first);
  }

  lemma WeekdayShift(x: int, n: int)
    ensures (x + n) % 7 == (x % 7 + n) % 7
  {
    assert x == 7 * (x / 7) + x % 7;
    assert x + n == 7 * (x / 7) + (x % 7 + n);
  }

  /** The next month starts on the weekday that lies `daysInMonth` days after
      this month's `firstDayOfMonth`. */
  lemma NextMonthFirstDay(current: CalDate)
    ensures FirstDayOfMonth(CalDate(current.year, current.month + 1, 1))
         == (FirstDayOfMonth(current) + DaysInMonth(current)) % 7
  {
    var k := current.year * 12 + current.month;
    var n := DaysInMonth(current);
    var x := DaysSinceEpoch(CalDate(current.year, current.month, 1)) + 4;
    assert DaysSinceEpoch(CalDate(current.year, current.month + 1, 1)) + 4 == x + n by {
      assert current.year * 12 + (current.month + 1) == k + 1;
    }
    WeekdayShift(x, n);
  }

  /** 2024 and 2000 are leap years; 1900 and 2025 are not. */
  lemma LeapYears()
    ensures DaysInMonth(CalDate(2024, 1, 1)) == 29 && DaysInMonth(CalDate(2000, 1, 1)) == 29
    ensures DaysInMonth(CalDate(1900, 1, 1)) == 28 && DaysInMonth(CalDate(2025, 1, 1)) == 28
  {
    assert 24289 / 12 == 2024 && 24289 % 12 == 1;
    assert 24001 / 12 == 2000 && 24001 % 12 == 1;
    assert 22801 / 12 == 1900 && 22801 % 12 == 1;
    assert 24301 / 12 == 2025 && 24301 % 12 == 1;
  }

  /** Fixed points of the weekday computation: the epoch was a Thursday and
      7 June 2025 a Saturday. */
  lemma EpochIsThursday()
    ensures Weekday(CalDate(1970, 0, 1)) == 4
  {
    assert 23640 / 12 == 1970 && 23640 % 12 == 0;
    assert 1969 / 400 == 4 && 1969 % 400 == 369;
    assert FirstOfMonth(1970, 1) == 0;
  }

  lemma KnownSaturday()
    ensures IsSaturday(CalDate(2025, 5, 7))
    ensures !IsSaturday(CalDate(2025, 5, 8))
  {
    assert 24305 / 12 == 2025 && 24305 % 12 == 5;
    assert 2025 / 400 == 5 && 2025 % 400 == 25;
    assert FirstOfMonth(2025, 6) == 20240;
  }

  /** 29 February 2024 exists and 1 March follows it. */
  lemma LeapDay()
    ensures DaysSinceEpoch(CalDate(2024, 2, 1)) == DaysSinceEpoch(CalDate(2024, 1, 29)) + 1
    ensures Weekday(CalDate(2024, 2, 1)) == 5
  {
    assert 24289 / 12 == 2024 && 24289 % 12 == 1;
    assert 24290 / 12 == 2024 && 24290 % 12 == 2;
    assert 2023 / 400 == 5 && 2023 % 400 == 23;
    assert 2024 / 400 == 5 && 2024 % 400 == 24;
    assert FirstOfMonth(2024, 2) == 19754;
    assert FirstOfMonth(2024, 3) == 19783;
  }
}

=== FILE: catalog.dfy ===
/** The product catalog endpoints: the in-stock listing, lookup by id, and
    the stock update, both as the embedded-database routes (behind the admin
    and validation middleware) and as the serverless handler (behind neither). */
module Catalog {
  import opened Wrappers
  import opened Store
  import opened Http
  import Validation
  import Forms

  /** `SELECT * FROM products WHERE stock_quantity > 0`, in table order. */
  function InStock(products: seq<Product>): (r: seq<Product>)
    ensures forall p :: p in r <==> p in products && p.stock > 0
    ensures |r| <= |products|
  {
    if products == [] then []
    else (if products[0].stock > 0 then [products[0]] else []) + InStock(products[1..])
  }

  /** The first row with id `id`, as `SELECT * FROM products WHERE id = ?` returns it. */
  function FindId(products: seq<Product>, id: int): (r: Option<nat>)
    ensures r.Some? ==> r.value < |products| && products[r.value].id == id
    ensures r.Some? ==> forall j :: 0 <= j < r.value ==> products[j].id != id
    ensures r.None? ==> forall j :: 0 <= j < |products| ==> products[j].id != id
  {
    if products == [] then None
    else if products[0].id == id then Some(0)
    else match FindId(products[1..], id)
      case None => None
      case Some(j) => Some(j + 1)
  }

  /** `UPDATE products SET stock_quantity = v WHERE id = id`. */
  function SetStockRows(products: seq<Product>, id: int, v: int): (r: seq<Product>)
    ensures |r| == |products|
    ensures forall i :: 0 <= i < |products| ==>
      r[i] == if products[i].id == id then products[i].(stock := v) else products[i]
  {
    seq(|products|, i requires 0 <= i < |products| =>
      if products[i].id == id then products[i].(stock := v) else products[i])
  }

  /** `t` differs from `s` only in that every row with id `id` now holds stock `v`. */
  ghost predicate StockSet(s: Store, t: Store, id: int, v: int) {
    && t == s.(products := t.products)
    && |t.products| == |s.products|
    && forall i :: 0 <= i < |s.products| ==>
         t.products[i] == if s.products[i].id == id then s.products[i].(stock := v) else s.products[i]
  }

  // ---------------------------------------------------------------------------
  // routes/products.js

  /** GET /: the in-stock listing. */
  function ListProducts(s: Store, fault: bool): (out: Reply)
    ensures out.store == s
    ensures out.response.status == 200 <==> !fault && s.schema.productsTable
    ensures out.response.status == 200 ==>
      out.response.body.ProductList?
      && forall p :: p in out.response.body.products <==> p in s.products && p.stock > 0
  {
    if fault || !s.schema.productsTable then Reply(s, Response(500, ErrorBody("Failed to fetch products")))
    else Reply(s, Response(200, ProductList(InStock(s.products))))
  }

  /** GET /:id: one product, or 404. */
  function GetProduct(s: Store, id: int, fault: bool): (out: Reply)
    ensures out.store == s
    ensures out.response.status == 404 <==>
      !fault && s.schema.productsTable && forall i :: 0 <= i < |s.products| ==> s.products[i].id != id
    ensures out.response.status == 200 ==>
      out.response.body.ProductView? && out.response.body.product.id == id && out.response.body.product in s.products
    ensures out.response.status == 200 || out.response.status == 404 || out.response.status == 500
    ensures !fault && s.schema.productsTable && FindId(s.products, id).Some? ==>
      out.response == Response(200, ProductView(s.products[FindId(s.products, id).value]))
    ensures fault || !s.schema.productsTable ==> out.response == Response(500, ErrorBody("Failed to fetch product"))
  {
    if fault || !s.schema.productsTable then Reply(s, Response(500, ErrorBody("Failed to fetch product")))
    else match FindId(s.products, id)
      case None => Reply(s, Response(404, ErrorBody("Product not found")))
      case Some(i) => Reply(s, Response(200, ProductView(s.products[i])))
  }

  /** What the admin middleware makes of the request's bearer token. */
  datatype AdminAuth = NoToken | BadToken | NotAdmin | Admin

  /** The admin guard's rejection, if any. */
  function AdminGate(auth: AdminAuth): Option<Response> {
    match auth
    case NoToken => Some(Response(401, ErrorBody("Access token required")))
    case BadToken => Some(Response(403, ErrorBody("Invalid or expired token")))
    case NotAdmin => Some(Response(403, ErrorBody("Admin access required")))
    case Admin => None
  }

  /** Whether the route's stock update goes through. */
  predicate RouteStockSucceeds(s: Store, auth: AdminAuth, id: int, q: Option<string>, fault: bool) {
    && auth == Admin && Validation.ValidStockQuantity(q) && !fault && s.schema.productsTable
    && exists i :: 0 <= i < |s.products| && s.products[i].id == id
  }

  /** The stock a validated `stock_quantity` sets: the integer its string form
      spells, since the database stores a numeric string in an integer column
      as that integer. */
  function StockValue(q: Option<string>): int {
    Forms.ParseInt(Validation.Text(q)).GetOr(0)
  }

  /** PUT /:id/stock, behind the admin guard and the stock validator: set the
      product's stock to the given value, or answer 404 when no row has the id. */
  function RouteSetStock(s: Store, auth: AdminAuth, id: int, q: Option<string>, fault: bool): (out: Reply)
    ensures auth != Admin ==> out.store == s && (out.response.status == 401 || out.response.status == 403)
    ensures auth == Admin && !Validation.ValidStockQuantity(q) ==>
      out == Reply(s, Response(400, ValidationErrors([Validation.BadStockQuantity])))
    ensures out.response.status != 200 ==> out.store == s
    ensures out.response.status == 200 <==> RouteStockSucceeds(s, auth, id, q, fault)
    ensures out.response.status == 200 ==>
      StockSet(s, out.store, id, StockValue(q)) && Forms.ParseInt(Validation.Text(q)) == Some(StockValue(q))
      && 0 <= StockValue(q) <= 10000
    ensures auth == Admin && Validation.ValidStockQuantity(q) && (fault || !s.schema.productsTable)
      ==> out == Reply(s, Response(500, ErrorBody("Failed to update stock")))
    ensures auth == Admin && Validation.ValidStockQuantity(q) && !fault && s.schema.productsTable
      && (forall i :: 0 <= i < |s.products| ==> s.products[i].id != id)
      ==> out == Reply(s, Response(404, ErrorBody("Product not found")))
  {
    match AdminGate(auth)
    case Some(r) => Reply(s, r)
    case None =>
      match Validation.HandleValidationErrors(Validation.ValidateStockUpdate(q))
      case Reject(errors) => Reply(s, Response(400, ValidationErrors(errors)))
      case Proceed =>
        var v := StockValue(q);
        if v < 0 then Reply(s, Response(400, ErrorBody("Stock quantity cannot be negative")))
        else if fault || !s.schema.productsTable then Reply(s, Response(500, ErrorBody("Failed to update stock")))
        else if FindId(s.products, id).None? then Reply(s, Response(404, ErrorBody("Product not found")))
        else Reply(s.(products := SetStockRows(s.products, id, v)), Response(200, StockUpdated))
  }

  // ---------------------------------------------------------------------------
  // api/products.js

  /** The range of a Postgres `integer`, the type of the `id` and
      `stock_quantity` columns. */
  const PgIntMin: int := -0x8000_0000
  const PgIntMax: int := 0x7fff_ffff

  /** How Postgres reads a text parameter compared with the `integer` id
      column: the integer the text spells, or None when the text spells none
      in range and the statement fails. */
  function PgInteger(t: string): (r: Option<int>)
    ensures r.Some? ==> Forms.ParseInt(t) == r && PgIntMin <= r.value <= PgIntMax
    ensures r.None? ==> Forms.ParseInt(t).None? || Forms.ParseInt(t).value < PgIntMin || Forms.ParseInt(t).value > PgIntMax
  {
    match Forms.ParseInt(t)
    case Some(n) => if PgIntMin <= n <= PgIntMax then Some(n) else None
    case None => None
  }

  /** Whether the serverless PUT updates a row: the stock is not negative
      and fits the `integer` column, the update runs, the `id` query text reads as an integer, and a row
      has that id. */
  predicate ApiStockSucceeds(s: Store, id: Option<string>, v: int, fault: bool) {
    && 0 <= v <= PgIntMax && !fault && s.schema.productsTable && id.Some? && PgInteger(id.value).Some?
    && exists i :: 0 <= i < |s.products| && s.products[i].id == PgInteger(id.value).value
  }

  /** The serverless products handler: GET lists, PUT sets stock (with no
      admin check), OPTIONS is the preflight, anything else is 405. The `id`
      query parameter is text: a missing one is NULL and matches no row, and
      one that does not read as an integer makes the update fail. */
  function ApiProducts(s: Store, m: Method, id: Option<string>, v: int, fault: bool): (out: Reply)
    ensures m == Options ==> out == Reply(s, Preflight)
    ensures m !in {Options, Get, Put} ==> out == Reply(s, MethodNotAllowed)
    ensures m == Get ==> out.store == s
    ensures m == Get ==> (out.response.status == 200 <==> !fault && s.schema.productsTable)
    ensures m == Get && out.response.status == 200 ==>
      out.response.body.ProductList?
      && forall p :: p in out.response.body.products <==> p in s.products && p.stock > 0
    ensures m == Put && v < 0 ==> out == Reply(s, Response(400, ErrorBody("Stock quantity cannot be negative")))
    ensures out.response.status != 200 ==> out.store == s
    ensures m == Put ==> (out.response.status == 200 <==> ApiStockSucceeds(s, id, v, fault))
    ensures m == Put && out.response.status == 200 ==> StockSet(s, out.store, PgInteger(id.value).value, v)
    ensures m == Put && v >= 0
      && (fault || !s.schema.productsTable || v > PgIntMax || (id.Some? && PgInteger(id.value).None?))
      ==> out == Reply(s, Response(500, ErrorBody("Internal server error")))
    ensures m == Put && 0 <= v <= PgIntMax && !fault && s.schema.productsTable
      && (id.None? || (PgInteger(id.value).Some?
                       && forall i :: 0 <= i < |s.products| ==> s.products[i].id != PgInteger(id.value).value))
      ==> out == Reply(s, Response(404, ErrorBody("Product not found")))
  {
    if m == Options then Reply(s, Preflight)
    else if m == Get then
      if fault || !s.schema.productsTable then Reply(s, Response(500, ErrorBody("Internal server error")))
      else Reply(s, Response(200, ProductList(InStock(s.products))))
    else if m == Put then
      if v < 0 then Reply(s, Response(400, ErrorBody("Stock quantity cannot be negative")))
      else if fault || !s.schema.productsTable || v > PgIntMax then Reply(s, Response(500, ErrorBody("Internal server error")))
      else match id
        case None => Reply(s, Response(404, ErrorBody("Product not found")))
        case Some(t) =>
          match PgInteger(t)
          case None => Reply(s, Response(500, ErrorBody("Internal server error")))
          case Some(n) =>
            if FindId(s.products, n).None? then Reply(s, Response(404, ErrorBody("Product not found")))
            else Reply(s.(products := SetStockRows(s.products, n, v)), Response(200, StockUpdated))
    else Reply(s, MethodNotAllowed)
  }

  // ---------------------------------------------------------------------------
  // Properties across calls

  /** The route's own negative-stock check never fires: the validator in
      front of it already rejects every negative value. */
  lemma RouteNegativeCheckUnreachable(s: Store, auth: AdminAuth, id: int, q: Option<string>, fault: bool)
    ensures RouteSetStock(s, auth, id, q, fault).response != Response(400, ErrorBody("Stock quantity cannot be negative"))
  {
    if auth == Admin && Validation.ValidStockQuantity(q) {
      assert !(StockValue(q) < 0);
    }
  }

  /** An administrator's update goes through whether the new stock is sent as
      a number or as a numeric string: both reach the validator as the same
      text, and the row ends up holding that integer. */
  lemma RouteAcceptsNumericText(s: Store, id: int, n: int)
    requires s.schema.productsTable && 0 <= n <= 10000
    requires exists i :: 0 <= i < |s.products| && s.products[i].id == id
    ensures var out := RouteSetStock(s, Admin, id, Some(Forms.IntText(n)), false);
      out.response == Response(200, StockUpdated) && StockSet(s, out.store, id, n)
    ensures RouteSetStock(s, Admin, id, Some("5"), false).response == Response(200, StockUpdated)
  {
    assert Forms.ParseInt("5") == Some(5);
  }

  /** The serverless PUT goes through for any caller, where the route turns
      away a request without an admin token. */
  lemma ApiSkipsAdminCheck(s: Store, id: int, v: int)
    requires s.schema.productsTable && 0 <= v <= 10000 && PgIntMin <= id <= PgIntMax
    requires exists i :: 0 <= i < |s.products| && s.products[i].id == id
    ensures ApiProducts(s, Put, Some(Forms.IntText(id)), v, false).response.status == 200
    ensures RouteSetStock(s, NoToken, id, Some(Forms.IntText(v)), false).response.status == 401
  {
  }

  /** An `id` that does not read as a Postgres integer, such as "abc" or one
      past the 32-bit range, fails the update with 500 and changes nothing. */
  lemma ApiRejectsNonIntegerId(s: Store, v: int)
    requires s.schema.productsTable && v >= 0
    ensures ApiProducts(s, Put, Some("abc"), v, false) == Reply(s, Response(500, ErrorBody("Internal server error")))
    ensures ApiProducts(s, Put, Some(Forms.IntText(PgIntMax + 1)), v, false)
         == Reply(s, Response(500, ErrorBody("Internal server error")))
  {
    assert !Forms.IsDigit("abc"[0]);
  }

  /** A stock past the 32-bit range is not negative, so it reaches the
      database, which rejects it for the `integer` column: 500, whatever the
      `id`, and nothing changes. */
  lemma ApiRejectsOversizedStock(s: Store, id: Option<string>)
    requires s.schema.productsTable
    ensures ApiProducts(s, Put, id, PgIntMax + 1, false) == Reply(s, Response(500, ErrorBody("Internal server error")))
    ensures ApiProducts(s, Put, id, PgIntMax, false).response.status != 500 <==> id.None? || PgInteger(id.value).Some?
  {
  }

  /** After a successful stock update through the route, looking the product
      up by id shows exactly the stock that was set. */
  lemma SetStockThenGet(s: Store, id: int, q: Option<string>)
    requires RouteStockSucceeds(s, Admin, id, q, false)
    ensures var g := GetProduct(RouteSetStock(s, Admin, id, q, false).store, id, false);
      g.response.status == 200 && g.response.body.product.id == id && g.response.body.product.stock == StockValue(q)
  {
    var t := RouteSetStock(s, Admin, id, q, false).store;
    var i := FindId(t.products, id).value;
    assert t.products[i].id == id;
  }

  /** After a successful serverless stock update of a product whose id is
      unique, the serverless listing shows it exactly when the new stock is
      positive. */
  lemma SetStockThenList(s: Store, id: Option<string>, v: int)
    requires UniqueIds(s.products) && ApiStockSucceeds(s, id, v, false)
    ensures var t := ApiProducts(s, Put, id, v, false).store;
      var l := ApiProducts(t, Get, None, 0, false);
      var n := PgInteger(id.value).value;
      l.response.status == 200 && ((exists p :: p in l.response.body.products && p.id == n) <==> v > 0)
  {
    var n := PgInteger(id.value).value;
    var t := ApiProducts(s, Put, id, v, false).store;
    assert StockSet(s, t, n, v);
    var k :| 0 <= k < |s.products| && s.products[k].id == n;
    StockSetKeepsIds(s, t, n, v);
    var l := ApiProducts(t, Get, None, 0, false);
    ListedExactlyWhenInStock(t.products, l.response.body.products, k, n);
  }

  /** Setting a stock level changes no id, so unique ids stay unique. */
  lemma StockSetKeepsIds(s: Store, t: Store, id: int, v: int)
    requires StockSet(s, t, id, v)
    ensures |t.products| == |s.products|
    ensures forall i :: 0 <= i < |s.products| ==> t.products[i].id == s.products[i].id
    ensures forall i :: 0 <= i < |s.products| && s.products[i].id == id ==> t.products[i].stock == v
    ensures UniqueIds(s.products) ==> UniqueIds(t.products)
  {
  }

  /** In a table with unique ids, a listing of exactly the in-stock rows shows
      the row with a given id exactly when that row has stock. */
  lemma ListedExactlyWhenInStock(products: seq<Product>, listed: seq<Product>, k: nat, id: int)
    requires UniqueIds(products) && k < |products| && products[k].id == id
    requires forall p :: p in listed <==> p in products && p.stock > 0
    ensures (exists p :: p in listed && p.id == id) <==> products[k].stock > 0
  {
    if exists p :: p in listed && p.id == id {
      var p :| p in listed && p.id == id;
      var j :| 0 <= j < |products| && products[j] == p;
      assert j == k;
    } else {
      assert products[k] in products;
    }
  }
}

=== FILE: csrf.dfy ===
/** The CSRF middleware: a map from session id to the token issued for it,
    the accept/reject decision for a request, token issuing, and the two ways
    tokens leave the map (the per-token expiry timer and the periodic purge).
    Fresh tokens and session ids are parameters. */
module Csrf {
  import opened Wrappers
  import opened Http

  /** The tokens issued so far, by session id. */
  type TokenTable = map<string, string>

  /** The map is emptied once it holds more than this many tokens. */
  const PurgeThreshold: nat := 1000

  /** The parts of a request the middleware reads. */
  datatype CsrfRequest = CsrfRequest(
    verb: Method,
    path: string,
    headerToken: Option<string>,     // `x-csrf-token`
    bodyToken: Option<string>,       // `_csrf` in the body
    sessionId: Option<string>,       // `req.session.id`
    headerSessionId: Option<string>) // `x-session-id`

  datatype Decision = Next | Deny(response: Response)

  /** JavaScript truthiness of an optional string: present and non-empty. */
  predicate Truthy(v: Option<string>) {
    v.Some? && v.value != ""
  }

  /** `a || b` on optional strings. */
  function Or(a: Option<string>, b: Option<string>): (r: Option<string>)
    ensures Truthy(r) <==> Truthy(a) || Truthy(b)
    ensures Truthy(a) ==> r == a
  {
    if Truthy(a) then a else b
  }

  /** Whether `t` occurs in `s` at position `i`. */
  predicate OccursAt(s: string, t: string, i: int) {
    0 <= i && i + |t| <= |s| && s[i..i + |t|] == t
  }

  /** `s.includes(t)`, searching from position `from`. */
  function ContainsFrom(s: string, t: string, from: nat): (r: bool)
    ensures r <==> exists i :: from <= i && OccursAt(s, t, i)
    decreases |s| - from
  {
    if from + |t| > |s| then false
    else if s[from..from + |t|] == t then assert OccursAt(s, t, from); true
    else ContainsFrom(s, t, from + 1)
  }

  function Contains(s: string, t: string): bool {
    ContainsFrom(s, t, 0)
  }

  /** Requests the middleware never checks. */
  predicate Exempt(req: CsrfRequest) {
    req.verb == Get || Contains(req.path, "/paypal/webhook")
  }

  /** The token the request presents: the header first, then the body field. */
  function PresentedToken(req: CsrfRequest): Option<string> {
    Or(req.headerToken, req.bodyToken)
  }

  /** The session the request claims: the server session first, then the header. */
  function ClaimedSession(req: CsrfRequest): Option<string> {
    Or(req.sessionId, req.headerSessionId)
  }

  /** `csrfProtection`. */
  function Check(tokens: TokenTable, req: CsrfRequest): (d: Decision)
    ensures Exempt(req) ==> d == Next
    ensures !Exempt(req) && !(Truthy(ClaimedSession(req)) && Truthy(PresentedToken(req))) ==>
      d == Deny(Response(403, ErrorBody("CSRF token missing")))
    ensures d == Next <==>
      Exempt(req) ||
      (&& Truthy(ClaimedSession(req)) && Truthy(PresentedToken(req))
       && ClaimedSession(req).value in tokens && tokens[ClaimedSession(req).value] != ""
       && tokens[ClaimedSession(req).value] == PresentedToken(req).value)
    ensures d.Deny? ==> d.response.status == 403
  {
    if Exempt(req) then Next
    else
      var token := PresentedToken(req);
      var sid := ClaimedSession(req);
      if !Truthy(sid) || !Truthy(token) then Deny(Response(403, ErrorBody("CSRF token missing")))
      else if sid.value !in tokens || tokens[sid.value] == "" || tokens[sid.value] != token.value then
        Deny(Response(403, ErrorBody("Invalid CSRF token")))
      else Next
  }

  /** `getCSRFToken`: the session is the request's own or a fresh one; the
      fresh token replaces whatever that session held. */
  function IssueToken(tokens: TokenTable, sessionId: Option<string>, freshSession: string, freshToken: string)
    : (r: (TokenTable, Response))
    ensures var sid := if Truthy(sessionId) then sessionId.value else freshSession;
      && r.0 == tokens[sid := freshToken]
      && r.1 == Response(200, CsrfIssued(freshToken, sid))
  {
    var sid := if Truthy(sessionId) then sessionId.value else freshSession;
    (tokens[sid := freshToken], Response(200, CsrfIssued(freshToken, sid)))
  }

  /** The hour-later timer of one issued token: it removes the session's
      entry, whatever token the entry holds by then. */
  function Expire(tokens: TokenTable, sid: string): (r: TokenTable)
    ensures sid !in r && r.Keys == tokens.Keys - {sid}
    ensures forall k :: k in r ==> r[k] == tokens[k]
  {
    tokens - {sid}
  }

  /** The hourly purge: everything goes once the table holds more than the threshold. */
  function Purge(tokens: TokenTable): (r: TokenTable)
    ensures |tokens| > PurgeThreshold ==> r == map[]
    ensures |tokens| <= PurgeThreshold ==> r == tokens
  {
    if |tokens| > PurgeThreshold then map[] else tokens
  }

  // ---------------------------------------------------------------------------
  // Properties across calls

  /** A state-changing request for `sid` carrying its token in the header. */
  function WithToken(m: Method, path: string, sid: string, token: string): CsrfRequest {
    CsrfRequest(m, path, Some(token), None, Some(sid), None)
  }

  /** A token just issued for a session is accepted for that session. */
  lemma IssueThenCheck(tokens: TokenTable, sid: string, freshSession: string, token: string, m: Method, path: string)
    requires sid != "" && token != ""
    ensures var t := IssueToken(tokens, Some(sid), freshSession, token).0;
      Check(t, WithToken(m, path, sid, token)) == Next
  {
  }

  /** Re-issuing a session's token revokes the one issued before it. */
  lemma ReissueRevokes(tokens: TokenTable, sid: string, oldToken: string, newToken: string, m: Method, path: string)
    requires sid != "" && oldToken != "" && oldToken != newToken
    requires m != Get && !Contains(path, "/paypal/webhook")
    ensures var t1 := IssueToken(tokens, Some(sid), "", oldToken).0;
      var t2 := IssueToken(t1, Some(sid), "", newToken).0;
      Check(t2, WithToken(m, path, sid, oldToken)) == Deny(Response(403, ErrorBody("Invalid CSRF token")))
  {
  }

  /** The first token's expiry timer also removes a token re-issued for the
      same session after it, so the newer token stops working early. */
  lemma EarlierTimerExpiresReissuedToken(tokens: TokenTable, sid: string, oldToken: string, newToken: string, m: Method, path: string)
    requires sid != "" && newToken != ""
    requires m != Get && !Contains(path, "/paypal/webhook")
    ensures var t1 := IssueToken(tokens, Some(sid), "", oldToken).0;
      var t2 := IssueToken(t1, Some(sid), "", newToken).0;
      && Check(t2, WithToken(m, path, sid, newToken)) == Next
      && Check(Expire(t2, sid), WithToken(m, path, sid, newToken)).Deny?
  {
  }

  /** After a purge of an over-full table no checked request passes. */
  lemma PurgeRejectsEverything(tokens: TokenTable, req: CsrfRequest)
    requires |tokens| > PurgeThreshold && !Exempt(req)
    ensures Check(Purge(tokens), req).Deny?
  {
  }

  /** GET requests and webhook paths pass whatever the table holds. */
  lemma ExemptAlwaysPasses(tokens: TokenTable, sid: string, token: string, path: string)
    ensures Check(tokens, CsrfRequest(Get, path, None, None, None, None)) == Next
    ensures Check(tokens, CsrfRequest(Post, "/api/paypal/webhook", None, None, None, None)) == Next
  {
    assert OccursAt("/api/paypal/webhook", "/paypal/webhook", 4);
  }
}

=== FILE: forms.dfy ===
/** The string forms the request validators read. Before a rule runs, the
    validator library turns the field's value into text: a string stays as it
    is, a number becomes its decimal text, and a missing value or null
    becomes "". The numeric rules then parse that text: `isInt` accepts
    `/^[-+]?[0-9]+$/`, and `isFloat` accepts an optional sign, digits with an
    optional fraction, and an optional exponent. */
module Forms {
  import opened Wrappers

  predicate IsDigit(c: char) {
    '0' <= c <= '9'
  }

  predicate AllDigits(t: string) {
    forall k :: 0 <= k < |t| ==> IsDigit(t[k])
  }

  function DigitValue(c: char): nat
    requires IsDigit(c)
  {
    c as int - '0' as int
  }

  function DigitChar(d: nat): (c: char)
    requires d < 10
    ensures IsDigit(c) && DigitValue(c) == d
  {
    ('0' as int + d) as char
  }

  /** The number a run of decimal digits spells, most significant first. */
  function DigitsValue(t: string): nat
    requires AllDigits(t)
  {
    if t == [] then 0 else DigitsValue(t[..|t| - 1]) * 10 + DigitValue(t[|t| - 1])
  }

  function Pow10(n: nat): (r: nat)
    ensures r >= 1
  {
    if n == 0 then 1 else 10 * Pow10(n - 1)
  }

  /** Ten to an integer power, as a real. */
  function Scale(e: int): (r: real)
    ensures r > 0.0
  {
    if e >= 0 then Pow10(e) as real else 1.0 / Pow10(-e) as real
  }

  /** One optional leading sign: whether it is '-', and the text after it. */
  function SplitSign(t: string): (r: (bool, string))
    ensures r.1 == t || (t != [] && r.1 == t[1..] && (t[0] == '-' || t[0] == '+'))
    ensures r.0 ==> t != [] && t[0] == '-'
  {
    if t != [] && (t[0] == '-' || t[0] == '+') then (t[0] == '-', t[1..]) else (false, t)
  }

  /** `isInt`'s pattern, and the integer the text spells when it matches. */
  function ParseInt(t: string): Option<int> {
    var (neg, u) := SplitSign(t);
    if u != [] && AllDigits(u) then Some(if neg then -(DigitsValue(u) as int) else DigitsValue(u)) else None
  }

  /** The decimal digits of `n`, without leading zeros. */
  function DigitsText(n: nat): (t: string)
    ensures t != [] && AllDigits(t) && DigitsValue(t) == n
    ensures t[0] != '0' || n == 0
    decreases n
  {
    if n < 10 then [DigitChar(n)]
    else
      var a := DigitsText(n / 10);
      var t := a + [DigitChar(n % 10)];
      assert t[..|t| - 1] == a;
      t
  }

  /** The text JavaScript gives an integer-valued number, which `isInt`
      parses back to the same integer. */
  function IntText(n: int): (t: string)
    ensures ParseInt(t) == Some(n)
    ensures forall k :: 0 <= k < |t| ==> IsDigit(t[k]) || (k == 0 && t[k] == '-')
  {
    if n >= 0 then DigitsText(n)
    else
      var d := DigitsText(-n);
      assert ("-" + d)[1..] == d;
      "-" + d
  }

  /** The first exponent marker, or the length when there is none. */
  function FindExp(t: string): (i: nat)
    ensures i <= |t|
    ensures forall k :: 0 <= k < i ==> t[k] != 'e' && t[k] != 'E'
    ensures i < |t| ==> t[i] == 'e' || t[i] == 'E'
  {
    if t == [] || t[0] == 'e' || t[0] == 'E' then 0 else 1 + FindExp(t[1..])
  }

  /** The first decimal point, or the length when there is none. */
  function FindDot(t: string): (i: nat)
    ensures i <= |t|
    ensures forall k :: 0 <= k < i ==> t[k] != '.'
    ensures i < |t| ==> t[i] == '.'
  {
    if t == [] || t[0] == '.' then 0 else 1 + FindDot(t[1..])
  }

  /** `[0-9]*(\.[0-9]*)?` with at least one digit: the unsigned value. */
  function ParseMantissa(t: string): Option<real> {
    var i := FindDot(t);
    var whole := t[..i];
    var frac := if i < |t| then t[i + 1..] else [];
    if AllDigits(whole) && AllDigits(frac) && |whole| + |frac| >= 1
    then Some(DigitsValue(whole) as real + DigitsValue(frac) as real / Pow10(|frac|) as real)
    else None
  }

  /** `isFloat`'s pattern together with the value `parseFloat` reads from
      the text; None when the pattern fails or the value is not a number. */
  function ParseFloat(t: string): Option<real> {
    var (neg, u) := SplitSign(t);
    var i := FindExp(u);
    var m := ParseMantissa(u[..i]);
    var e := if i == |u| then Some(0) else ParseInt(u[i + 1..]);
    if m.Some? && e.Some? then Some((if neg then -1.0 else 1.0) * m.value * Scale(e.value)) else None
  }

  // ---------------------------------------------------------------------------
  // Properties

  /** Text `isInt` accepts is also accepted by `isFloat`, with the same value. */
  lemma IntIsFloat(t: string)
    requires ParseInt(t).Some?
    ensures ParseFloat(t) == Some(ParseInt(t).value as real)
  {
    var (neg, u) := SplitSign(t);
    assert forall k :: 0 <= k < |u| ==> u[k] != 'e' && u[k] != 'E' && u[k] != '.';
    assert FindExp(u) == |u|;
    assert u[..|u|] == u;
    assert FindDot(u) == |u|;
  }

  /** Every integer's decimal text passes `isFloat` with its own value. */
  lemma IntTextIsFloat(n: int)
    ensures ParseFloat(IntText(n)) == Some(n as real)
  {
    IntIsFloat(IntText(n));
  }

  /** Signs, leading zeros and a `+` are accepted: "+007" and "-0" are the
      integers 7 and 0. */
  lemma LenientIntForms()
    ensures ParseInt("+007") == Some(7)
    ensures ParseInt("-0") == Some(0)
    ensures ParseInt("5.0") == None && ParseInt("") == None && ParseInt(" 5") == None
  {
    assert SplitSign("+007").1 == "007";
    assert "007"[..2] == "00" && "00"[..1] == "0" && "0"[..0] == "";
    assert SplitSign("-0").1 == "0";
    assert !IsDigit("5.0"[1]);
    assert !IsDigit(" 5"[0]);
  }

  /** A fraction is read as decimal arithmetic: "2.50" is 2.5. */
  lemma FloatFraction()
    ensures ParseFloat("2.50") == Some(2.5)
  {
    var t := "2.50";
    assert SplitSign(t) == (false, t);
    assert FindExp("") == 0;
    assert FindExp(t) == 4;
    assert t[..4] == t;
    assert FindDot(t) == 1;
    assert t[..1] == "2" && t[2..] == "50";
    assert "50"[..1] == "5";
    assert DigitsValue("50") == 50;
    assert Pow10(2) == 100;
    assert ParseMantissa(t) == Some(2.5);
  }

  /** An exponent scales by a power of ten: "1e2" is 100. */
  lemma FloatExponent()
    ensures ParseFloat("1e2") == Some(100.0)
  {
    var t := "1e2";
    assert SplitSign(t) == (false, t);
    assert FindExp(t) == 1;
    assert t[..1] == "1" && t[2..] == "2";
    assert FindDot("1") == 1;
    assert "1"[..1] == "1";
    assert ParseMantissa("1") == Some(1.0);
    assert ParseInt("2") == Some(2);
    assert Scale(2) == 100.0;
  }

  /** Text with no digit before the exponent is not a number. */
  lemma FloatNeedsDigits()
    ensures ParseFloat(".") == None && ParseFloat("-") == None && ParseFloat("e5") == None
  {
    assert FindExp(".") == 1 && "."[..1] == ".";
    assert FindDot(".") == 0 && "."[..0] == "" && "."[1..] == "";
    assert SplitSign("-").1 == "";
    assert FindExp("e5") == 0 && "e5"[..0] == "";
  }
}

=== FILE: http.dfy ===
/** Requests and responses as the handlers see them. A handler is a pure
    transition from a store to a `Reply`: the store after the request and the
    response sent. A rolled-back request replies with the store it was given. */
module Http {
  import opened Wrappers
  import opened Store
  import Validation

  datatype Method = Get | Post | Put | Delete | Patch | Options

  /** One element of the `items` the order lookup builds with `json_object`
      over the LEFT JOIN: the product name, quantity and price of a joined
      item row, each null when the join found no row. */
  datatype JoinedItem = JoinedItem(productName: Option<string>, quantity: Option<int>, price: Option<int>)

  /** The JSON (or empty) body of a response. */
  datatype Body =
    | NoBody
    | ErrorBody(error: string)
    | ValidationErrors(errors: seq<Validation.Violation>)
    | OrderCreated(orderId: string, total: int)
    | PaymentVerified
    | PaymentProcessed(orderId: string)
    | OrderView(order: Order, items: seq<JoinedItem>)
    | ProductList(products: seq<Product>)
    | ProductView(product: Product)
    | StockUpdated
    | Migrated(columnAdded: bool, ordersUpdated: nat)
    | MigrationNotNeeded
    | CsrfIssued(csrfToken: string, sessionId: string)

  datatype Response = Response(status: int, body: Body)

  datatype Reply = Reply(store: Store, response: Response)

  const MethodNotAllowed: Response := Response(405, ErrorBody("Method not allowed"))

  /** The empty 200 answer to a CORS preflight. */
  const Preflight: Response := Response(200, NoBody)
}

=== FILE: order_properties.dfy ===
/** Properties that relate several order operations: the store invariants
    every handler keeps, the create-then-read round trip, how the two payment
    protocols compare, and the inventory consequences of the way stock is
    checked and decremented. */
module OrderProperties {
  import opened Wrappers
  import opened Store
  import opened Http
  import opened Orders

  // ---------------------------------------------------------------------------
  // Store invariants

  /** Inserting a fresh order with its rows keeps the store well formed. */
  lemma PlaceKeepsWellFormed(s: Store, orderId: string, email: string, name: string, lines: seq<Line>,
                             status: Status, paypalOrderId: Option<string>, now: int)
    requires WellFormed(s) && TablesReady(s) && orderId !in s.orders
    ensures WellFormed(Place(s, orderId, email, name, lines, status, paypalOrderId, now))
  {
    var t := Place(s, orderId, email, name, lines, status, paypalOrderId, now);
    PlaceKeepsReferences(s, orderId, email, name, lines, status, paypalOrderId, now);
    PlaceKeepsTotals(s, orderId, email, name, lines, status, paypalOrderId, now);
    PlaceKeepsCompletion(s, orderId, email, name, lines, status, paypalOrderId, now);
  }

  lemma PlaceKeepsCompletion(s: Store, orderId: string, email: string, name: string, lines: seq<Line>,
                             status: Status, paypalOrderId: Option<string>, now: int)
    requires forall o :: o in s.orders ==> (s.orders[o].status == Completed <==> s.orders[o].completedAt.Some?)
    requires forall o :: o in s.orders ==> (s.orders[o].shipping.Some? <==> s.schema.shippingColumn)
    ensures var t := Place(s, orderId, email, name, lines, status, paypalOrderId, now);
      && (forall o :: o in t.orders ==> (t.orders[o].status == Completed <==> t.orders[o].completedAt.Some?))
      && (forall o :: o in t.orders ==> (t.orders[o].shipping.Some? <==> t.schema.shippingColumn))
  {
  }

  lemma PlaceKeepsReferences(s: Store, orderId: string, email: string, name: string, lines: seq<Line>,
                             status: Status, paypalOrderId: Option<string>, now: int)
    requires forall i :: 0 <= i < |s.items| ==> s.items[i].orderId in s.orders
    ensures var t := Place(s, orderId, email, name, lines, status, paypalOrderId, now);
      forall i :: 0 <= i < |t.items| ==> t.items[i].orderId in t.orders
  {
    var t := Place(s, orderId, email, name, lines, status, paypalOrderId, now);
    var rows := ToItems(orderId, lines);
    assert t.items == s.items + rows;
    forall i | 0 <= i < |t.items| ensures t.items[i].orderId in t.orders {
      if i >= |s.items| {
        assert t.items[i] == rows[i - |s.items|];
      } else {
        assert t.items[i] == s.items[i];
      }
    }
  }

  lemma PlaceKeepsTotals(s: Store, orderId: string, email: string, name: string, lines: seq<Line>,
                         status: Status, paypalOrderId: Option<string>, now: int)
    requires WellFormed(s) && orderId !in s.orders
    ensures var t := Place(s, orderId, email, name, lines, status, paypalOrderId, now);
      forall o :: o in t.orders ==> t.orders[o].total == ItemsCost(ItemsOf(t.items, o))
  {
    var t := Place(s, orderId, email, name, lines, status, paypalOrderId, now);
    forall o | o in t.orders ensures t.orders[o].total == ItemsCost(ItemsOf(t.items, o)) {
      assert forall i :: 0 <= i < |s.items| ==> s.items[i].orderId != orderId;
      TotalAfterPlace(s, orderId, lines, o, t.orders[o].total);
    }
  }

  /** The cost of an order's rows after a fresh order's rows are appended. */
  lemma TotalAfterPlace(s: Store, orderId: string, lines: seq<Line>, o: string, total: int)
    requires forall i :: 0 <= i < |s.items| ==> s.items[i].orderId != orderId
    requires o == orderId ==> total == Subtotal(lines)
    requires o != orderId ==> total == ItemsCost(ItemsOf(s.items, o))
    ensures total == ItemsCost(ItemsOf(s.items + ToItems(orderId, lines), o))
  {
    var rows := ToItems(orderId, lines);
    ItemsOfAppend(s.items, rows, o);
    ItemsOfToItems(orderId, lines, o);
    if o == orderId {
      ItemsOfNone(s.items, o);
      ToItemsCost(orderId, lines);
      assert ItemsOf(s.items + rows, o) == rows;
    } else {
      assert ItemsOf(rows, o) == [];
      assert ItemsOf(s.items + rows, o) == ItemsOf(s.items, o) + [];
      assert ItemsOf(s.items, o) + [] == ItemsOf(s.items, o);
    }
  }

  /** Changing stock levels only keeps the store well formed. */
  lemma RestockKeepsWellFormed(s: Store, p: seq<Product>)
    requires WellFormed(s)
    requires |p| == |s.products| && forall i :: 0 <= i < |p| ==> p[i].id == s.products[i].id
    ensures WellFormed(s.(products := p))
  {
  }

  /** Completing an order keeps the store well formed. */
  lemma CompleteKeepsWellFormed(s: Store, orderId: string, paypalOrderId: Option<string>, now: int)
    requires WellFormed(s)
    ensures WellFormed(s.(orders := CompleteOrder(s.orders, orderId, paypalOrderId, now)))
  {
    var t := s.(orders := CompleteOrder(s.orders, orderId, paypalOrderId, now));
    forall o | o in t.orders
      ensures t.orders[o].total == s.orders[o].total && t.orders[o].shipping == s.orders[o].shipping
      ensures t.orders[o].status == Completed <==> t.orders[o].completedAt.Some?
    {
      if o != orderId {
        assert t.orders[o] == s.orders[o];
      }
    }
  }

  lemma CreateOrderKeepsWellFormed(s: Store, m: Method, req: OrderRequest, orderId: string, now: int, fault: bool)
    requires WellFormed(s)
    ensures WellFormed(CreateOrder(s, m, req, orderId, now, fault).store)
  {
    if m == Post && CreateSucceeds(s, req, orderId, fault) {
      var lines := Reserve(s.products, req.items.value).lines;
      CreateCommitted(s, req, orderId, now);
      PlaceKeepsWellFormed(s, orderId, req.customerEmail.value, req.customerName.value, lines, Pending, req.paypalOrderId, now);
    }
  }

  /** The route's create keeps the store well formed, except when it
      answers 200 without an `order_items` table to write the rows into. */
  lemma RouteCreateKeepsWellFormed(s: Store, req: OrderRequest, orderId: string, now: int, fault: bool)
    requires WellFormed(s)
    ensures var out := RouteCreate(s, req, orderId, now, fault);
      s.schema.itemsTable || out.response.status != 200 ==> WellFormed(out.store)
  {
    if RouteCreateSucceeds(s, req, orderId, fault) && s.schema.itemsTable {
      var lines := Reserve(s.products, req.items.value).lines;
      PlaceKeepsWellFormed(s, orderId, req.customerEmail.value, req.customerName.value, lines, Pending, None, now);
    }
  }

  /** Without an `order_items` table the route's create still answers 200 and
      keeps an order of 2200 that has no rows, so its total no longer matches
      its rows. */
  lemma RouteCreateWithoutItemsTable(now: int)
    ensures var s := Store(Schema(true, true, false, true), [Product(1, "Decaf", 2200, 10)], map[], [], 2);
      var req := OrderRequest(Some([ItemRequest("Decaf", 1)]), Some("a@b.co"), Some("Jo"), None);
      var out := RouteCreate(s, req, "o", now, false);
      && WellFormed(s) && out.response == Response(200, OrderCreated("o", 2200))
      && out.store.items == [] && !WellFormed(out.store)
  {
    var s := Store(Schema(true, true, false, true), [Product(1, "Decaf", 2200, 10)], map[], [], 2);
    var reqs := [ItemRequest("Decaf", 1)];
    var req := OrderRequest(Some(reqs), Some("a@b.co"), Some("Jo"), None);
    assert Resolve(s.products, reqs[0]) == Some(Line(1, "Decaf", 1, 2200));
    assert reqs[1..] == [];
    assert Reserve(s.products, reqs) == Reserved([Line(1, "Decaf", 1, 2200)]);
    assert Subtotal([Line(1, "Decaf", 1, 2200)]) == 2200;
    var out := RouteCreate(s, req, "o", now, false);
    assert out.store.orders["o"].total == 2200;
    assert ItemsCost(ItemsOf(out.store.items, "o")) == 0;
  }

  lemma VerifyPaymentKeepsWellFormed(s: Store, m: Method, orderId: string, paypalOrderId: Option<string>,
                                     answer: ProviderAnswer, now: int, fault: bool, afterCommitFault: bool)
    requires WellFormed(s)
    ensures WellFormed(VerifyPayment(s, m, orderId, paypalOrderId, answer, now, fault, afterCommitFault).store)
  {
    if m == Post && VerifyCommits(s, answer, fault) {
      var c := s.(orders := CompleteOrder(s.orders, orderId, paypalOrderId, now));
      CompleteKeepsWellFormed(s, orderId, paypalOrderId, now);
      RestockKeepsWellFormed(c, VerifyDecrement(s.products, s.items, orderId));
    }
  }

  lemma RouteVerifyKeepsWellFormed(s: Store, orderId: string, paypalOrderId: Option<string>,
                                   answer: ProviderAnswer, now: int, fault: RouteFault)
    requires WellFormed(s)
    ensures WellFormed(RouteVerify(s, orderId, paypalOrderId, answer, now, fault).store)
  {
    if RouteVerifyAnswers(s, answer, fault) {
      var c := s.(orders := CompleteOrder(s.orders, orderId, paypalOrderId, now));
      CompleteKeepsWellFormed(s, orderId, paypalOrderId, now);
      if RouteStockApplies(s, fault) {
        RestockKeepsWellFormed(c, VerifyDecrement(s.products, s.items, orderId));
      }
    }
  }

  lemma ProcessPaymentKeepsWellFormed(s: Store, m: Method, req: OrderRequest, orderId: string, now: int,
                                      fault: bool, afterCommitFault: bool)
    requires WellFormed(s)
    ensures WellFormed(ProcessPayment(s, m, req, orderId, now, fault, afterCommitFault).store)
  {
    if m == Post && ProcessCommits(s, req, orderId, fault) {
      var lines := Reserve(s.products, req.items.value).lines;
      var placed := Place(s, orderId, req.customerEmail.value, req.customerName.value, lines, Completed, req.paypalOrderId, now);
      ProcessStore(s, req, orderId, now, afterCommitFault);
      PlaceKeepsWellFormed(s, orderId, req.customerEmail.value, req.customerName.value, lines, Completed, req.paypalOrderId, now);
      DecrementLinesSpec(s.products, lines);
      RestockKeepsWellFormed(placed, DecrementLines(s.products, lines));
    }
  }

  // ---------------------------------------------------------------------------
  // Round trip

  /** An order the router's create writes into a well-formed store with an
      order_items table reads back through the router's lookup as a pending
      order whose total is the one the create answered, with one item object
      per row written and no all-null placeholder. */
  lemma CreateThenGetOrder(s: Store, req: OrderRequest, orderId: string, now: int)
    requires WellFormed(s) && s.schema.itemsTable && RouteCreateSucceeds(s, req, orderId, false)
    ensures var c := RouteCreate(s, req, orderId, now, false);
      var g := GetOrder(c.store, orderId, false);
      && g.response.status == 200
      && g.response.body.order.status == Pending
      && g.response.body.order.email == req.customerEmail.value
      && c.response.body == OrderCreated(orderId, g.response.body.order.total)
      && g.response.body.items == ItemsColumn(c.store.items[|s.items|..])
      && g.response.body.items != [NullItem]
      && RowsRecord(s.products, orderId, req.items.value, c.store.items[|s.items|..])
  {
    var lines := Reserve(s.products, req.items.value).lines;
    RouteCreateCommitted(s, req, orderId, now);
    var c := Place(s, orderId, req.customerEmail.value, req.customerName.value, lines, Pending, None, now);
    var rows := ToItems(orderId, lines);
    assert c.items == s.items + rows;
    assert c.items[|s.items|..] == rows;
    assert forall i :: 0 <= i < |s.items| ==> s.items[i].orderId != orderId;
    ReadBackFresh(s.items, orderId, lines);
    assert rows != [] && ItemsColumn(rows)[0] == ItemJson(rows[0]);
    PlaceAdds(s, orderId, req.customerEmail.value, req.customerName.value, req.items.value, lines, Pending, None, now);
  }

  /** Rows appended for an order that had none are exactly the rows the
      lookup selects for it. */
  lemma ReadBackFresh(items: seq<OrderItem>, orderId: string, lines: seq<Line>)
    requires forall i :: 0 <= i < |items| ==> items[i].orderId != orderId
    ensures ItemsOf(items + ToItems(orderId, lines), orderId) == ToItems(orderId, lines)
  {
    ItemsOfAppend(items, ToItems(orderId, lines), orderId);
    ItemsOfNone(items, orderId);
    ItemsOfToItems(orderId, lines, orderId);
  }


  // ---------------------------------------------------------------------------
  // Payment verification

  /** Verifying a payment for an order the store does not hold completes
      nothing and moves no stock. */
  lemma VerifyUnknownOrderChangesNothing(s: Store, orderId: string, paypalOrderId: Option<string>, now: int,
                                         afterCommitFault: bool)
    requires WellFormed(s) && TablesReady(s) && orderId !in s.orders
    ensures var v := VerifyPayment(s, Post, orderId, paypalOrderId, ProviderStatus("COMPLETED"), now, false, afterCommitFault);
      && v.store == s
      && v.response == (if afterCommitFault then Response(500, ErrorBody("Failed to verify payment"))
                        else Response(200, PaymentVerified))
  {
    var v := VerifyPayment(s, Post, orderId, paypalOrderId, ProviderStatus("COMPLETED"), now, false, afterCommitFault);
    assert v.store.products == s.products by {
      forall i | 0 <= i < |s.products| ensures v.store.products[i] == s.products[i] {
        assert FirstItem(s.items, orderId, s.products[i].id).None?;
      }
    }
  }

  /** Verification is not idempotent: a second successful verification of the
      same order takes its items out of stock a second time. */
  lemma VerifyTwiceDecrementsTwice(s: Store, orderId: string, paypalOrderId: Option<string>, now: int, later: int)
    requires TablesReady(s)
    ensures var v1 := VerifyPayment(s, Post, orderId, paypalOrderId, ProviderStatus("COMPLETED"), now, false, false);
      var v2 := VerifyPayment(v1.store, Post, orderId, paypalOrderId, ProviderStatus("COMPLETED"), later, false, false);
      && v1.response.status == 200 && v2.response.status == 200
      && |v2.store.products| == |s.products|
      && forall i :: 0 <= i < |s.products| ==>
           v2.store.products[i].stock == s.products[i].stock - 2 * FirstQty(s.items, orderId, s.products[i].id).GetOr(0)
  {
  }

  /** No two lines take from the same product. */
  predicate DistinctProducts(lines: seq<Line>) {
    forall j, k :: 0 <= j < k < |lines| ==> lines[j].productId != lines[k].productId
  }

  lemma {:induction false} QtyForAbsent(lines: seq<Line>, id: int)
    requires forall k :: 0 <= k < |lines| ==> lines[k].productId != id
    ensures QtyFor(lines, id) == 0
  {
    if lines != [] {
      QtyForAbsent(lines[1..], id);
    }
  }

  /** Rows of another order in front do not change which item comes first. */
  lemma {:induction false} FirstQtySkip(a: seq<OrderItem>, b: seq<OrderItem>, orderId: string, id: int)
    requires forall k :: 0 <= k < |a| ==> a[k].orderId != orderId
    ensures FirstQty(a + b, orderId, id) == FirstQty(b, orderId, id)
  {
    if a == [] {
      assert a + b == b;
    } else {
      assert (a + b)[1..] == a[1..] + b;
      FirstQtySkip(a[1..], b, orderId, id);
    }
  }

  /** For an order whose lines name distinct products, the first-item
      quantity of each product is the whole quantity ordered of it. */
  lemma {:induction false} FirstQtyDistinct(orderId: string, lines: seq<Line>, id: int)
    requires DistinctProducts(lines)
    ensures FirstQty(ToItems(orderId, lines), orderId, id).GetOr(0) == QtyFor(lines, id)
  {
    if lines != [] {
      var rows := ToItems(orderId, lines);
      assert rows[1..] == ToItems(orderId, lines[1..]);
      if lines[0].productId == id {
        QtyForAbsent(lines[1..], id);
      } else {
        FirstQtyDistinct(orderId, lines[1..], id);
      }
    }
  }

  /** The two payment protocols agree when no product appears twice in an
      order: creating an order and then verifying its payment leaves the
      same store as the single create-and-complete call, except for the
      completion time. */
  lemma ProtocolsAgree(s: Store, req: OrderRequest, orderId: string, now: int, later: int)
    requires WellFormed(s) && ProcessCommits(s, req, orderId, false)
    requires DistinctProducts(Reserve(s.products, req.items.value).lines)
    ensures var c := CreateOrder(s, Post, req, orderId, now, false);
      var v := VerifyPayment(c.store, Post, orderId, req.paypalOrderId, ProviderStatus("COMPLETED"), later, false, false);
      var p := ProcessPayment(s, Post, req, orderId, now, false, false);
      && c.response.status == 200 && v.response.status == 200 && p.response.status == 200
      && v.store == p.store.(orders := p.store.orders[orderId := p.store.orders[orderId].(completedAt := Some(later))])
  {
    var lines := Reserve(s.products, req.items.value).lines;
    var email, name, pid := req.customerEmail.value, req.customerName.value, req.paypalOrderId;
    var placed := Place(s, orderId, email, name, lines, Pending, pid, now);
    var done := Place(s, orderId, email, name, lines, Completed, pid, now);
    CreateCommitted(s, req, orderId, now);
    ProcessCommitted(s, req, orderId, now);
    VerifyCommitted(placed, orderId, pid, later);
    assert forall i :: 0 <= i < |s.items| ==> s.items[i].orderId != orderId;
    SameDecrement(s.products, s.items, orderId, lines);
    CompletePlaced(s, orderId, email, name, lines, pid, now, later);
  }

  /** Completing a freshly placed pending order gives the completed order
      the single-step handler writes, up to the completion time. */
  lemma CompletePlaced(s: Store, orderId: string, email: string, name: string, lines: seq<Line>,
                       pid: Option<string>, now: int, later: int)
    ensures var placed := Place(s, orderId, email, name, lines, Pending, pid, now);
      var done := Place(s, orderId, email, name, lines, Completed, pid, now);
      CompleteOrder(placed.orders, orderId, pid, later)
        == done.orders[orderId := done.orders[orderId].(completedAt := Some(later))]
  {
    var pending := Order(email, name, Subtotal(lines), Pending, pid, NewShipping(s), now, None);
    var completed := Order(email, name, Subtotal(lines), Completed, pid, NewShipping(s), now, Some(now));
    assert Place(s, orderId, email, name, lines, Pending, pid, now).orders == s.orders[orderId := pending];
    assert Place(s, orderId, email, name, lines, Completed, pid, now).orders == s.orders[orderId := completed];
    assert pending.(status := Completed, paypalOrderId := pid, completedAt := Some(later))
        == completed.(completedAt := Some(later));
  }

  lemma VerifyCommitted(s: Store, orderId: string, pid: Option<string>, now: int)
    requires TablesReady(s)
    ensures VerifyPayment(s, Post, orderId, pid, ProviderStatus("COMPLETED"), now, false, false)
      == Reply(s.(orders := CompleteOrder(s.orders, orderId, pid, now),
                  products := VerifyDecrement(s.products, s.items, orderId)),
               Response(200, PaymentVerified))
  {
  }

  lemma CreateCommitted(s: Store, req: OrderRequest, orderId: string, now: int)
    requires CreateSucceeds(s, req, orderId, false)
    ensures var lines := Reserve(s.products, req.items.value).lines;
      CreateOrder(s, Post, req, orderId, now, false)
        == Reply(Place(s, orderId, req.customerEmail.value, req.customerName.value, lines, Pending, req.paypalOrderId, now),
                 Response(200, OrderCreated(orderId, Subtotal(lines))))
  {
  }

  lemma RouteCreateCommitted(s: Store, req: OrderRequest, orderId: string, now: int)
    requires s.schema.itemsTable && RouteCreateSucceeds(s, req, orderId, false)
    ensures var lines := Reserve(s.products, req.items.value).lines;
      RouteCreate(s, req, orderId, now, false)
        == Reply(Place(s, orderId, req.customerEmail.value, req.customerName.value, lines, Pending, None, now),
                 Response(200, OrderCreated(orderId, Subtotal(lines))))
  {
  }

  lemma ProcessStore(s: Store, req: OrderRequest, orderId: string, now: int, afterCommitFault: bool)
    requires ProcessCommits(s, req, orderId, false)
    ensures var lines := Reserve(s.products, req.items.value).lines;
      ProcessPayment(s, Post, req, orderId, now, false, afterCommitFault).store
        == Place(s, orderId, req.customerEmail.value, req.customerName.value, lines, Completed, req.paypalOrderId, now)
             .(products := DecrementLines(s.products, lines))
  {
  }

  lemma ProcessCommitted(s: Store, req: OrderRequest, orderId: string, now: int)
    requires ProcessCommits(s, req, orderId, false)
    ensures var lines := Reserve(s.products, req.items.value).lines;
      ProcessPayment(s, Post, req, orderId, now, false, false)
        == Reply(Place(s, orderId, req.customerEmail.value, req.customerName.value, lines, Completed, req.paypalOrderId, now)
                   .(products := DecrementLines(s.products, lines)),
                 Response(200, PaymentProcessed(orderId)))
  {
  }

  /** On an order's freshly written rows, the set-based update and the
      per-line loop take the same stock when no product appears twice. */
  lemma SameDecrement(products: seq<Product>, items: seq<OrderItem>, orderId: string, lines: seq<Line>)
    requires forall i :: 0 <= i < |items| ==> items[i].orderId != orderId
    requires DistinctProducts(lines)
    ensures VerifyDecrement(products, items + ToItems(orderId, lines), orderId) == DecrementLines(products, lines)
  {
    var rows := ToItems(orderId, lines);
    DecrementLinesSpec(products, lines);
    forall i | 0 <= i < |products|
      ensures VerifyDecrement(products, items + rows, orderId)[i] == DecrementLines(products, lines)[i]
    {
      FirstQtySkip(items, rows, orderId, products[i].id);
      FirstQtyDistinct(orderId, lines, products[i].id);
    }
  }

  /** The set-based verification update counts only the first of several
      items naming the same product, where the create-and-complete loop
      counts them all: an order of 2 and then 3 of product 1 takes 2 from its
      stock of 10 on one path and 5 on the other. */
  lemma VerifyCountsFirstItemOnly()
    ensures var products := [Product(1, "Decaf", 2200, 10)];
      var lines := [Line(1, "Decaf", 2, 2200), Line(1, "Decaf", 3, 2200)];
      && VerifyDecrement(products, ToItems("o", lines), "o")[0].stock == 8
      && DecrementLines(products, lines)[0].stock == 5
  {
    var products := [Product(1, "Decaf", 2200, 10)];
    var lines := [Line(1, "Decaf", 2, 2200), Line(1, "Decaf", 3, 2200)];
    assert FirstItem(ToItems("o", lines), "o", 1) == Some(0);
    DecrementLinesSpec(products, lines);
    assert lines[1..][1..] == [];
  }

  // ---------------------------------------------------------------------------
  // Stock levels

  predicate DistinctNames(reqs: seq<ItemRequest>) {
    forall j, k :: 0 <= j < k < |reqs| ==> reqs[j].name != reqs[k].name
  }

  predicate StockNonNegative(products: seq<Product>) {
    forall i :: 0 <= i < |products| ==> products[i].stock >= 0
  }

  lemma {:induction false} QtyForSingle(lines: seq<Line>, id: int, k: int)
    requires 0 <= k < |lines| && lines[k].productId == id
    requires forall j :: 0 <= j < |lines| && j != k ==> lines[j].productId != id
    ensures QtyFor(lines, id) == lines[k].quantity
  {
    if k == 0 {
      QtyForAbsent(lines[1..], id);
    } else {
      QtyForSingle(lines[1..], id, k - 1);
    }
  }

  /** A reserved line takes from the row it was checked against, and that
      row had at least the line's quantity in stock. */
  lemma ReservedLineFromRow(products: seq<Product>, reqs: seq<ItemRequest>, lines: seq<Line>, k: int, i: int)
    requires UniqueIds(products)
    requires Reserve(products, reqs) == Reserved(lines)
    requires 0 <= k < |lines| && 0 <= i < |products| && lines[k].productId == products[i].id
    ensures reqs[k].name == products[i].name && lines[k].quantity <= products[i].stock
  {
    assert Resolve(products, reqs[k]) == Some(lines[k]);
    var f := FindAvailable(products, reqs[k].name, reqs[k].quantity).value;
    assert products[f].id == lines[k].productId;
  }

  /** When the items of one order name distinct products, the
      create-and-complete handler never drives a stock level below zero. */
  lemma ProcessPaymentKeepsStock(s: Store, req: OrderRequest, orderId: string, now: int, afterCommitFault: bool)
    requires WellFormed(s) && StockNonNegative(s.products)
    requires ProcessCommits(s, req, orderId, false) && DistinctNames(req.items.value)
    ensures StockNonNegative(ProcessPayment(s, Post, req, orderId, now, false, afterCommitFault).store.products)
  {
    var reqs := req.items.value;
    var lines := Reserve(s.products, reqs).lines;
    var p := ProcessPayment(s, Post, req, orderId, now, false, afterCommitFault);
    DecrementLinesSpec(s.products, lines);
    forall i | 0 <= i < |s.products| ensures p.store.products[i].stock >= 0 {
      var id := s.products[i].id;
      if k :| 0 <= k < |lines| && lines[k].productId == id {
        ReservedLineFromRow(s.products, reqs, lines, k, i);
        forall j | 0 <= j < |lines| && j != k ensures lines[j].productId != id {
          if lines[j].productId == id {
            ReservedLineFromRow(s.products, reqs, lines, j, i);
          }
        }
        QtyForSingle(lines, id, k);
      } else {
        QtyForAbsent(lines, id);
      }
    }
  }

  /** Availability is checked item by item against the stock as it was before
      the order, so two items naming the same product can together take more
      than there is: 60 and 60 of a product with 100 in stock leaves -20. */
  lemma ProcessPaymentOversells(now: int)
    ensures var s := Store(Schema(true, true, true, true), [Product(1, "Decaf", 2200, 100)], map[], [], 2);
      var req := OrderRequest(Some([ItemRequest("Decaf", 60), ItemRequest("Decaf", 60)]),
                              Some("a@b.co"), Some("Jo"), None);
      var p := ProcessPayment(s, Post, req, "o", now, false, false);
      p.response.status == 200 && p.store.products[0].stock == -20
  {
    var products := [Product(1, "Decaf", 2200, 100)];
    var reqs := [ItemRequest("Decaf", 60), ItemRequest("Decaf", 60)];
    assert Resolve(products, reqs[0]) == Some(Line(1, "Decaf", 60, 2200));
    assert Resolve(products, reqs[1]) == Some(Line(1, "Decaf", 60, 2200));
    var lines := Reserve(products, reqs).lines;
    DecrementLinesSpec(products, lines);
    assert lines[1..][1..] == [];
  }
}

=== FILE: orders.dfy ===
/** The order endpoints: creating a pending order, verifying its payment, the
    single-step create-and-complete handler, and the embedded-database route
    variants of create, verify and order lookup.

    Everything the handlers learn from outside the store is a parameter: the
    fresh order id, the clock, the payment provider's answer, and whether a
    storage statement raises an error. */
module Orders {
  import opened Wrappers
  import opened Store
  import opened Http

  /** One `{name, quantity}` entry of a request's `items`. */
  datatype ItemRequest = ItemRequest(name: string, quantity: int)

  /** The body fields of an order-creating request; None is an absent field. */
  datatype OrderRequest = OrderRequest(
    items: Option<seq<ItemRequest>>,
    customerEmail: Option<string>,
    customerName: Option<string>,
    paypalOrderId: Option<string>)

  /** What fetching the PayPal order gave: its status, or an error (network
      failure, rejected credentials, malformed answer). */
  datatype ProviderAnswer = ProviderStatus(status: string) | ProviderError

  /** JavaScript truthiness of an optional string: present and non-empty. */
  predicate Truthy(v: Option<string>) {
    v.Some? && v.value != ""
  }

  /** `!items || items.length === 0`. */
  predicate NoItems(items: Option<seq<ItemRequest>>) {
    items.None? || |items.value| == 0
  }

  /** A row the availability query returns for the item. */
  predicate Available(p: Product, name: string, qty: int) {
    p.name == name && p.stock >= qty
  }

  // ---------------------------------------------------------------------------
  // Availability and line resolution

  /** `SELECT * FROM products WHERE name = $1 AND stock_quantity >= $2`,
      taking the first row: its index, or None when no row qualifies. */
  function FindAvailable(products: seq<Product>, name: string, qty: int): (r: Option<nat>)
    ensures r.Some? ==> r.value < |products| && Available(products[r.value], name, qty)
    ensures r.Some? ==> forall j :: 0 <= j < r.value ==> !Available(products[j], name, qty)
    ensures r.None? ==> forall j :: 0 <= j < |products| ==> !Available(products[j], name, qty)
  {
    if products == [] then None
    else if Available(products[0], name, qty) then Some(0)
    else match FindAvailable(products[1..], name, qty)
      case None => None
      case Some(i) => Some(i + 1)
  }

  /** The line an item resolves to: the first available row's id, name and
      price snapshot with the requested quantity. */
  function Resolve(products: seq<Product>, req: ItemRequest): Option<Line> {
    match FindAvailable(products, req.name, req.quantity)
    case None => None
    case Some(i) => Some(Line(products[i].id, products[i].name, req.quantity, products[i].price))
  }

  /** An item resolves exactly when some row by its name has enough stock;
      the line then snapshots such a row's id, name and price, with the
      requested quantity. */
  lemma ResolveMeaning(products: seq<Product>, req: ItemRequest)
    ensures Resolve(products, req).Some? <==>
      exists i :: 0 <= i < |products| && Available(products[i], req.name, req.quantity)
    ensures Resolve(products, req).Some? ==>
      exists i :: 0 <= i < |products| && Available(products[i], req.name, req.quantity)
        && Resolve(products, req).value == Line(products[i].id, products[i].name, req.quantity, products[i].price)
  {
    if Resolve(products, req).Some? {
      var i := FindAvailable(products, req.name, req.quantity).value;
      assert Available(products[i], req.name, req.quantity);
    }
  }

  datatype Reservation = Reserved(lines: seq<Line>) | Unavailable(name: string)

  /** The 400 answer naming an item that has no row with enough stock. */
  function NotAvailable(name: string): Response {
    Response(400, ErrorBody("Product " + name + " not available in requested quantity"))
  }

  /** Item `k` is the first one with no available row. */
  ghost predicate FirstUnavailable(products: seq<Product>, reqs: seq<ItemRequest>, k: int) {
    && 0 <= k < |reqs| && Resolve(products, reqs[k]).None?
    && forall j :: 0 <= j < k ==> Resolve(products, reqs[j]).Some?
  }

  lemma UnavailableShift(products: seq<Product>, reqs: seq<ItemRequest>, n: string)
    requires |reqs| > 0 && Resolve(products, reqs[0]).Some?
    requires exists k :: FirstUnavailable(products, reqs[1..], k) && n == reqs[1..][k].name
    ensures exists k :: FirstUnavailable(products, reqs, k) && n == reqs[k].name
  {
    var k :| FirstUnavailable(products, reqs[1..], k) && n == reqs[1..][k].name;
    assert FirstUnavailable(products, reqs, k + 1);
  }

  /** The availability loop: every item checked, in order, against the stock
      as it was before the order; the first unavailable item aborts it. */
  function Reserve(products: seq<Product>, reqs: seq<ItemRequest>): (r: Reservation)
    ensures r.Reserved? <==> forall k :: 0 <= k < |reqs| ==> Resolve(products, reqs[k]).Some?
    ensures r.Reserved? ==> |r.lines| == |reqs|
    ensures r.Reserved? ==> forall k :: 0 <= k < |reqs| ==> Resolve(products, reqs[k]) == Some(r.lines[k])
    ensures r.Unavailable? ==> exists k :: FirstUnavailable(products, reqs, k) && r.name == reqs[k].name
  {
    if reqs == [] then Reserved([])
    else match Resolve(products, reqs[0])
      case None =>
        assert FirstUnavailable(products, reqs, 0);
        Unavailable(reqs[0].name)
      case Some(l) =>
        match Reserve(products, reqs[1..])
        case Unavailable(n) =>
          UnavailableShift(products, reqs, n);
          Unavailable(n)
        case Reserved(ls) =>
          Reserved([l] + ls)
  }

  // ---------------------------------------------------------------------------
  // Writes

  /** The `shipping_amount` a new row gets: the column default, when the column exists. */
  function NewShipping(s: Store): Option<int> {
    if s.schema.shippingColumn then Some(DefaultShipping) else None
  }

  /** Inserts the order row and its item rows. */
  function Place(s: Store, orderId: string, email: string, name: string, lines: seq<Line>,
                 status: Status, paypalOrderId: Option<string>, now: int): (t: Store)
    ensures t.products == s.products && t.schema == s.schema && t.nextProductId == s.nextProductId
    ensures t.orders.Keys == s.orders.Keys + {orderId}
    ensures forall o :: o in s.orders && o != orderId ==> t.orders[o] == s.orders[o]
    ensures t.items == s.items + ToItems(orderId, lines)
  {
    var order := Order(email, name, Subtotal(lines), status, paypalOrderId, NewShipping(s), now,
                       if status == Completed then Some(now) else None);
    s.(orders := s.orders[orderId := order], items := s.items + ToItems(orderId, lines))
  }

  /** `UPDATE products SET stock_quantity = stock_quantity - q WHERE id = pid`. */
  function DecrementRows(products: seq<Product>, pid: int, q: int): (r: seq<Product>)
    ensures |r| == |products|
    ensures forall i :: 0 <= i < |products| ==>
      r[i] == products[i].(stock := products[i].stock - if products[i].id == pid then q else 0)
  {
    seq(|products|, i requires 0 <= i < |products| =>
      if products[i].id == pid then products[i].(stock := products[i].stock - q) else products[i])
  }

  /** Total quantity the lines take from product `id`. */
  function QtyFor(lines: seq<Line>, id: int): int {
    if lines == [] then 0
    else (if lines[0].productId == id then lines[0].quantity else 0) + QtyFor(lines[1..], id)
  }

  /** The create-and-complete inventory loop: one decrement per line, in order. */
  function DecrementLines(products: seq<Product>, lines: seq<Line>): seq<Product>
    decreases |lines|
  {
    if lines == [] then products
    else DecrementLines(DecrementRows(products, lines[0].productId, lines[0].quantity), lines[1..])
  }

  /** After the loop every row has lost exactly the quantity its id was
      ordered in, summed over the lines, and nothing else about it changed. */
  lemma {:induction false} DecrementLinesSpec(products: seq<Product>, lines: seq<Line>)
    decreases |lines|
    ensures |DecrementLines(products, lines)| == |products|
    ensures forall i :: 0 <= i < |products| ==>
      DecrementLines(products, lines)[i]
        == products[i].(stock := products[i].stock - QtyFor(lines, products[i].id))
  {
    if lines != [] {
      var p1 := DecrementRows(products, lines[0].productId, lines[0].quantity);
      DecrementLinesSpec(p1, lines[1..]);
      forall i | 0 <= i < |products|
        ensures DecrementLines(products, lines)[i]
          == products[i].(stock := products[i].stock - QtyFor(lines, products[i].id))
      {
        assert p1[i].id == products[i].id;
      }
    }
  }

  /** Item `k` belongs to the order and names product `id`. */
  predicate Names(item: OrderItem, orderId: string, id: int) {
    item.orderId == orderId && item.productId == id
  }

  /** Index of the first item of the order that names product `id`. */
  function FirstItem(items: seq<OrderItem>, orderId: string, id: int): (r: Option<nat>)
    ensures r.Some? ==> r.value < |items| && Names(items[r.value], orderId, id)
    ensures r.Some? ==> forall k :: 0 <= k < r.value ==> !Names(items[k], orderId, id)
    ensures r.None? ==> forall k :: 0 <= k < |items| ==> !Names(items[k], orderId, id)
  {
    if items == [] then None
    else if Names(items[0], orderId, id) then Some(0)
    else match FirstItem(items[1..], orderId, id)
      case None => None
      case Some(k) => Some(k + 1)
  }

  /** Total quantity the `order_items` rows take from product `id`. */
  function ItemsQty(items: seq<OrderItem>, id: int): int {
    if items == [] then 0
    else (if items[0].productId == id then items[0].quantity else 0) + ItemsQty(items[1..], id)
  }

  /** The quantity of the first item of the order that names product `id`. */
  function FirstQty(items: seq<OrderItem>, orderId: string, id: int): Option<int> {
    match FirstItem(items, orderId, id)
    case None => None
    case Some(k) => Some(items[k].quantity)
  }

  /** The set-based inventory update run on payment verification: every
      product named by one of the order's items loses that item's quantity
      (with several items naming it, only the first counts). */
  function VerifyDecrement(products: seq<Product>, items: seq<OrderItem>, orderId: string): (r: seq<Product>)
    ensures |r| == |products|
    ensures forall i :: 0 <= i < |products| ==>
      r[i] == products[i].(stock := products[i].stock - FirstQty(items, orderId, products[i].id).GetOr(0))
  {
    seq(|products|, i requires 0 <= i < |products| =>
      products[i].(stock := products[i].stock - FirstQty(items, orderId, products[i].id).GetOr(0)))
  }

  /** What the verification update does to each product row: a product no
      row of the order names keeps its row, and a product the order names
      loses the quantity of the first row naming it. */
  lemma VerifyDecrementTakesFirstRow(products: seq<Product>, items: seq<OrderItem>, orderId: string)
    ensures var r := VerifyDecrement(products, items, orderId);
      forall i :: 0 <= i < |products| && (forall k :: 0 <= k < |items| ==> !Names(items[k], orderId, products[i].id))
        ==> r[i] == products[i]
    ensures var r := VerifyDecrement(products, items, orderId);
      forall i, k :: 0 <= i < |products| && 0 <= k < |items| && Names(items[k], orderId, products[i].id)
        && (forall j :: 0 <= j < k ==> !Names(items[j], orderId, products[i].id))
        ==> r[i] == products[i].(stock := products[i].stock - items[k].quantity)
  {
    var r := VerifyDecrement(products, items, orderId);
    forall i, k | 0 <= i < |products| && 0 <= k < |items| && Names(items[k], orderId, products[i].id)
        && (forall j :: 0 <= j < k ==> !Names(items[j], orderId, products[i].id))
      ensures r[i] == products[i].(stock := products[i].stock - items[k].quantity)
    {
      var f := FirstItem(items, orderId, products[i].id);
      assert f.Some?;
      assert !(f.value < k);
      assert f.value == k;
    }
  }

  /** `UPDATE orders SET status = 'completed', paypal_order_id = $2,
      completed_at = now WHERE order_id = $3`. */
  function CompleteOrder(orders: map<string, Order>, orderId: string, paypalOrderId: Option<string>, now: int)
    : (r: map<string, Order>)
    ensures r.Keys == orders.Keys
    ensures forall o :: o in orders && o != orderId ==> r[o] == orders[o]
    ensures orderId in orders ==>
      r[orderId] == orders[orderId].(status := Completed, paypalOrderId := paypalOrderId, completedAt := Some(now))
  {
    if orderId in orders then
      orders[orderId := orders[orderId].(status := Completed, paypalOrderId := paypalOrderId, completedAt := Some(now))]
    else orders
  }

  // ---------------------------------------------------------------------------
  // What a successful insert leaves behind

  /** The rows `rows` record the requested items one for one: the order id,
      and the line each item resolved to. */
  ghost predicate RowsRecord(products: seq<Product>, orderId: string, reqs: seq<ItemRequest>, rows: seq<OrderItem>) {
    && |rows| == |reqs|
    && forall k :: 0 <= k < |reqs| ==>
         rows[k].orderId == orderId
         && Resolve(products, reqs[k]) == Some(Line(rows[k].productId, rows[k].productName, rows[k].quantity, rows[k].price))
  }

  /** `t` is `s` with exactly one new order `orderId` in state `status`, its
      item rows appended after the existing ones, and a total equal to what
      those rows cost. */
  ghost predicate OrderAdded(s: Store, t: Store, orderId: string, reqs: seq<ItemRequest>,
                             email: string, name: string, status: Status, paypalOrderId: Option<string>, now: int) {
    && orderId !in s.orders
    && t.orders.Keys == s.orders.Keys + {orderId}
    && (forall o :: o in s.orders ==> t.orders[o] == s.orders[o])
    && |t.items| == |s.items| + |reqs| && t.items[..|s.items|] == s.items
    && RowsRecord(s.products, orderId, reqs, t.items[|s.items|..])
    && var o := t.orders[orderId];
       && o.email == email && o.name == name && o.status == status
       && o.paypalOrderId == paypalOrderId && o.createdAt == now
       && o.total == ItemsCost(t.items[|s.items|..])
       && o.shipping == NewShipping(s)
       && (o.completedAt.Some? <==> status == Completed)
  }

  lemma PlaceAdds(s: Store, orderId: string, email: string, name: string, reqs: seq<ItemRequest>,
                  lines: seq<Line>, status: Status, paypalOrderId: Option<string>, now: int)
    requires orderId !in s.orders
    requires Reserve(s.products, reqs) == Reserved(lines)
    ensures OrderAdded(s, Place(s, orderId, email, name, lines, status, paypalOrderId, now), orderId, reqs,
                       email, name, status, paypalOrderId, now)
  {
    var t := Place(s, orderId, email, name, lines, status, paypalOrderId, now);
    var rows := ToItems(orderId, lines);
    assert t.items[..|s.items|] == s.items;
    assert t.items[|s.items|..] == rows;
    ToItemsCost(orderId, lines);
  }

  // ---------------------------------------------------------------------------
  // api/orders/create.js

  /** Every condition under which the create handler commits. */
  predicate CreateSucceeds(s: Store, req: OrderRequest, orderId: string, fault: bool) {
    && !NoItems(req.items) && TablesReady(s)
    && Reserve(s.products, req.items.value).Reserved?
    && !fault && req.customerEmail.Some? && req.customerName.Some? && orderId !in s.orders
  }

  /** The availability loop runs to the end: the items are non-empty, the
      `products` table answers, and every item has a row. */
  predicate AllAvailable(s: Store, req: OrderRequest) {
    !NoItems(req.items) && s.schema.productsTable && Reserve(s.products, req.items.value).Reserved?
  }

  /** POST: reject an empty order; in one transaction check every item's
      availability, insert a pending order with the request's PayPal id and
      its item rows; roll back on an unavailable item or a storage error.
      Each statement fails when its table is missing: the availability query
      needs `products`, the inserts need `orders` and `order_items`. A
      `fault` is an error raised by one of the inserts. Stock is never
      touched. */
  function CreateOrder(s: Store, m: Method, req: OrderRequest, orderId: string, now: int, fault: bool): (out: Reply)
    ensures m == Options ==> out == Reply(s, Preflight)
    ensures m != Options && m != Post ==> out == Reply(s, MethodNotAllowed)
    ensures m == Post && NoItems(req.items) ==> out == Reply(s, Response(400, ErrorBody("No items in order")))
    ensures m == Post && !NoItems(req.items) && !s.schema.productsTable
      ==> out == Reply(s, Response(500, ErrorBody("Failed to create order")))
    ensures m == Post && !NoItems(req.items) && s.schema.productsTable && Reserve(s.products, req.items.value).Unavailable?
      ==> out == Reply(s, NotAvailable(Reserve(s.products, req.items.value).name))
    ensures m == Post && AllAvailable(s, req) && !CreateSucceeds(s, req, orderId, fault)
      ==> out == Reply(s, Response(500, ErrorBody("Failed to create order")))
    ensures out.store.products == s.products
    ensures out.response.status != 200 ==> out.store == s
    ensures m == Post ==> (out.response.status == 200 <==> CreateSucceeds(s, req, orderId, fault))
    ensures m == Post && out.response.status == 200 ==>
      && OrderAdded(s, out.store, orderId, req.items.value, req.customerEmail.value, req.customerName.value,
                    Pending, req.paypalOrderId, now)
      && out.response.body == OrderCreated(orderId, out.store.orders[orderId].total)
  {
    if m == Options then Reply(s, Preflight)
    else if m != Post then Reply(s, MethodNotAllowed)
    else if NoItems(req.items) then Reply(s, Response(400, ErrorBody("No items in order")))
    else if !s.schema.productsTable then Reply(s, Response(500, ErrorBody("Failed to create order")))
    else match Reserve(s.products, req.items.value)
      case Unavailable(n) => Reply(s, NotAvailable(n))
      case Reserved(lines) =>
        // a thrown statement, a missing table, a NULL in a NOT NULL column or a duplicate order_id rolls back
        if fault || !s.schema.ordersTable || !s.schema.itemsTable
           || req.customerEmail.None? || req.customerName.None? || orderId in s.orders then
          Reply(s, Response(500, ErrorBody("Failed to create order")))
        else
          var t := Place(s, orderId, req.customerEmail.value, req.customerName.value, lines, Pending, req.paypalOrderId, now);
          PlaceAdds(s, orderId, req.customerEmail.value, req.customerName.value, req.items.value, lines, Pending, req.paypalOrderId, now);
          Reply(t, Response(200, OrderCreated(orderId, Subtotal(lines))))
  }

  // ---------------------------------------------------------------------------
  // api/orders/verify-payment.js

  /** Whether the verify handler reaches its COMMIT. */
  predicate VerifyCommits(s: Store, answer: ProviderAnswer, fault: bool) {
    answer == ProviderStatus("COMPLETED") && !fault && TablesReady(s)
  }

  /** `t` is `s` with order `orderId` (if there is one) completed under the
      PayPal id at time `now`, and every product named by one of that
      order's items down by that item's quantity; nothing else differs. */
  ghost predicate PaymentApplied(s: Store, t: Store, orderId: string, paypalOrderId: Option<string>, now: int) {
    && t.schema == s.schema && t.items == s.items && t.nextProductId == s.nextProductId
    && t.orders.Keys == s.orders.Keys
    && (forall o :: o in s.orders && o != orderId ==> t.orders[o] == s.orders[o])
    && (orderId in s.orders ==>
          t.orders[orderId] == s.orders[orderId].(status := Completed, paypalOrderId := paypalOrderId, completedAt := Some(now)))
    && |t.products| == |s.products|
    && forall i :: 0 <= i < |s.products| ==>
         t.products[i] == s.products[i].(stock := s.products[i].stock - FirstQty(s.items, orderId, s.products[i].id).GetOr(0))
  }

  /** POST: ask the provider for the PayPal order; unless it is COMPLETED
      answer 400; otherwise, in one transaction, complete the order and take
      its items out of stock. A failure after COMMIT (re-reading the order
      for the confirmation email) still answers 500, with the change kept. */
  function VerifyPayment(s: Store, m: Method, orderId: string, paypalOrderId: Option<string>,
                         answer: ProviderAnswer, now: int, fault: bool, afterCommitFault: bool): (out: Reply)
    ensures m == Options ==> out == Reply(s, Preflight)
    ensures m != Options && m != Post ==> out == Reply(s, MethodNotAllowed)
    ensures m == Post && answer.ProviderStatus? && answer.status != "COMPLETED"
      ==> out == Reply(s, Response(400, ErrorBody("Payment not completed")))
    ensures m == Post && answer.ProviderError? ==> out == Reply(s, Response(500, ErrorBody("Failed to verify payment")))
    ensures m == Post && answer == ProviderStatus("COMPLETED") && !VerifyCommits(s, answer, fault)
      ==> out == Reply(s, Response(500, ErrorBody("Failed to verify payment")))
    ensures m == Post && !VerifyCommits(s, answer, fault) ==> out.store == s && out.response.status != 200
    ensures m == Post && VerifyCommits(s, answer, fault) ==>
      && PaymentApplied(s, out.store, orderId, paypalOrderId, now)
      && out.response == (if afterCommitFault then Response(500, ErrorBody("Failed to verify payment"))
                          else Response(200, PaymentVerified))
  {
    if m == Options then Reply(s, Preflight)
    else if m != Post then Reply(s, MethodNotAllowed)
    else if answer.ProviderError? then Reply(s, Response(500, ErrorBody("Failed to verify payment")))
    else if answer.status != "COMPLETED" then Reply(s, Response(400, ErrorBody("Payment not completed")))
    else if fault || !TablesReady(s) then Reply(s, Response(500, ErrorBody("Failed to verify payment")))
    else
      var t := s.(orders := CompleteOrder(s.orders, orderId, paypalOrderId, now),
                  products := VerifyDecrement(s.products, s.items, orderId));
      if afterCommitFault then Reply(t, Response(500, ErrorBody("Failed to verify payment")))
      else Reply(t, Response(200, PaymentVerified))
  }

  // ---------------------------------------------------------------------------
  // api/orders/process-payment.js

  /** Whether the create-and-complete handler reaches its COMMIT. */
  predicate ProcessCommits(s: Store, req: OrderRequest, orderId: string, fault: bool) {
    && !NoItems(req.items) && Truthy(req.customerName) && Truthy(req.customerEmail)
    && TablesReady(s) && Reserve(s.products, req.items.value).Reserved?
    && !fault && orderId !in s.orders
  }

  /** Every product row lost exactly the quantity the new rows `rows` order of it. */
  ghost predicate StockTaken(before: seq<Product>, after: seq<Product>, rows: seq<OrderItem>) {
    && |after| == |before|
    && forall i :: 0 <= i < |before| ==>
         after[i] == before[i].(stock := before[i].stock - ItemsQty(rows, before[i].id))
  }

  /** The quantity the loop takes from a product is what the written rows order of it. */
  lemma {:induction false} QtyForRows(orderId: string, lines: seq<Line>, id: int)
    ensures ItemsQty(ToItems(orderId, lines), id) == QtyFor(lines, id)
  {
    if lines != [] {
      assert ToItems(orderId, lines)[1..] == ToItems(orderId, lines[1..]);
      QtyForRows(orderId, lines[1..], id);
    }
  }

  /** Writing a completed order and taking its lines out of stock adds the
      order and takes from each product what the new rows order of it. */
  lemma PlaceAndTake(s: Store, orderId: string, email: string, name: string, reqs: seq<ItemRequest>,
                     lines: seq<Line>, paypalOrderId: Option<string>, now: int)
    requires orderId !in s.orders && Reserve(s.products, reqs) == Reserved(lines)
    ensures var t := Place(s, orderId, email, name, lines, Completed, paypalOrderId, now)
                     .(products := DecrementLines(s.products, lines));
      && OrderAdded(s, t, orderId, reqs, email, name, Completed, paypalOrderId, now)
      && StockTaken(s.products, t.products, t.items[|s.items|..])
  {
    var t := Place(s, orderId, email, name, lines, Completed, paypalOrderId, now)
             .(products := DecrementLines(s.products, lines));
    PlaceAdds(s, orderId, email, name, reqs, lines, Completed, paypalOrderId, now);
    DecrementLinesSpec(s.products, lines);
    assert t.items[|s.items|..] == ToItems(orderId, lines);
    forall id ensures ItemsQty(t.items[|s.items|..], id) == QtyFor(lines, id) {
      QtyForRows(orderId, lines, id);
    }
  }

  /** POST: reject an empty order or missing customer details; in one
      transaction check availability, insert a completed order with its item
      rows and decrement each line's product. As in the create handler, each
      statement needs its own table, and `fault` is an error raised by one of
      the writes. */
  function ProcessPayment(s: Store, m: Method, req: OrderRequest, orderId: string, now: int,
                          fault: bool, afterCommitFault: bool): (out: Reply)
    ensures m == Options ==> out == Reply(s, Preflight)
    ensures m != Options && m != Post ==> out == Reply(s, MethodNotAllowed)
    ensures m == Post && NoItems(req.items) ==> out == Reply(s, Response(400, ErrorBody("No items in order")))
    ensures m == Post && !NoItems(req.items) && !(Truthy(req.customerName) && Truthy(req.customerEmail))
      ==> out == Reply(s, Response(400, ErrorBody("Customer information missing")))
    ensures m == Post && !NoItems(req.items) && Truthy(req.customerName) && Truthy(req.customerEmail)
      && !s.schema.productsTable
      ==> out == Reply(s, Response(500, ErrorBody("Failed to process payment")))
    ensures m == Post && !NoItems(req.items) && Truthy(req.customerName) && Truthy(req.customerEmail)
      && s.schema.productsTable && Reserve(s.products, req.items.value).Unavailable?
      ==> out == Reply(s, NotAvailable(Reserve(s.products, req.items.value).name))
    ensures m == Post && AllAvailable(s, req) && Truthy(req.customerName) && Truthy(req.customerEmail)
      && !ProcessCommits(s, req, orderId, fault)
      ==> out == Reply(s, Response(500, ErrorBody("Failed to process payment")))
    ensures m == Post && !ProcessCommits(s, req, orderId, fault) ==> out.store == s && out.response.status != 200
    ensures m == Post && ProcessCommits(s, req, orderId, fault) ==>
      && OrderAdded(s, out.store, orderId, req.items.value, req.customerEmail.value, req.customerName.value,
                    Completed, req.paypalOrderId, now)
      && StockTaken(s.products, out.store.products, out.store.items[|s.items|..])
      && out.response == (if afterCommitFault then Response(500, ErrorBody("Failed to process payment"))
                          else Response(200, PaymentProcessed(orderId)))
  {
    if m == Options then Reply(s, Preflight)
    else if m != Post then Reply(s, MethodNotAllowed)
    else if NoItems(req.items) then Reply(s, Response(400, ErrorBody("No items in order")))
    else if !(Truthy(req.customerName) && Truthy(req.customerEmail)) then
      Reply(s, Response(400, ErrorBody("Customer information missing")))
    else if !s.schema.productsTable then Reply(s, Response(500, ErrorBody("Failed to process payment")))
    else match Reserve(s.products, req.items.value)
      case Unavailable(n) => Reply(s, NotAvailable(n))
      case Reserved(lines) =>
        if fault || !s.schema.ordersTable || !s.schema.itemsTable || orderId in s.orders then
          Reply(s, Response(500, ErrorBody("Failed to process payment")))
        else
          var email := req.customerEmail.value;
          var name := req.customerName.value;
          var t := Place(s, orderId, email, name, lines, Completed, req.paypalOrderId, now)
                     .(products := DecrementLines(s.products, lines));
          PlaceAndTake(s, orderId, email, name, req.items.value, lines, req.paypalOrderId, now);
          if afterCommitFault then Reply(t, Response(500, ErrorBody("Failed to process payment")))
          else Reply(t, Response(200, PaymentProcessed(orderId)))
  }

  // ---------------------------------------------------------------------------
  // routes/orders.js (embedded database, no transactions)

  /** Whether the route's create answers 200: the availability loop ran to
      the end and the order row was inserted. */
  predicate RouteCreateSucceeds(s: Store, req: OrderRequest, orderId: string, fault: bool) {
    && AllAvailable(s, req) && s.schema.ordersTable
    && !fault && req.customerEmail.Some? && req.customerName.Some? && orderId !in s.orders
  }

  /** Route POST /create: like the serverless create, but without a PayPal id
      and without a transaction. A failed availability query or order insert
      answers 500 before anything is written (`fault` is an error of the
      order insert). The item rows are inserted after the order row by
      statements whose errors are never looked at, and the answer does not
      wait for them: without an `order_items` table the order is kept and
      answered 200 with no rows. */
  function RouteCreate(s: Store, req: OrderRequest, orderId: string, now: int, fault: bool): (out: Reply)
    ensures NoItems(req.items) ==> out == Reply(s, Response(400, ErrorBody("No items in order")))
    ensures !NoItems(req.items) && !s.schema.productsTable
      ==> out == Reply(s, Response(500, ErrorBody("Failed to create order")))
    ensures !NoItems(req.items) && s.schema.productsTable && Reserve(s.products, req.items.value).Unavailable?
      ==> out == Reply(s, NotAvailable(Reserve(s.products, req.items.value).name))
    ensures AllAvailable(s, req) && !RouteCreateSucceeds(s, req, orderId, fault)
      ==> out == Reply(s, Response(500, ErrorBody("Failed to create order")))
    ensures out.store.products == s.products
    ensures out.response.status != 200 ==> out.store == s
    ensures out.response.status == 200 <==> RouteCreateSucceeds(s, req, orderId, fault)
    ensures out.response.status == 200 && s.schema.itemsTable ==>
      && OrderAdded(s, out.store, orderId, req.items.value, req.customerEmail.value, req.customerName.value,
                    Pending, None, now)
      && out.response.body == OrderCreated(orderId, out.store.orders[orderId].total)
    ensures out.response.status == 200 && !s.schema.itemsTable ==>
      && out.store.items == s.items && out.store.orders.Keys == s.orders.Keys + {orderId}
      && (forall o :: o in s.orders ==> out.store.orders[o] == s.orders[o])
      && out.response.body == OrderCreated(orderId, out.store.orders[orderId].total)
      && out.store.orders[orderId].total == Subtotal(Reserve(s.products, req.items.value).lines)
  {
    if NoItems(req.items) then Reply(s, Response(400, ErrorBody("No items in order")))
    else if !s.schema.productsTable then Reply(s, Response(500, ErrorBody("Failed to create order")))
    else match Reserve(s.products, req.items.value)
      case Unavailable(n) => Reply(s, NotAvailable(n))
      case Reserved(lines) =>
        if fault || !s.schema.ordersTable || req.customerEmail.None? || req.customerName.None? || orderId in s.orders then
          Reply(s, Response(500, ErrorBody("Failed to create order")))
        else
          var t := Place(s, orderId, req.customerEmail.value, req.customerName.value, lines, Pending, None, now);
          if s.schema.itemsTable then
            PlaceAdds(s, orderId, req.customerEmail.value, req.customerName.value, req.items.value, lines, Pending, None, now);
            Reply(t, Response(200, OrderCreated(orderId, Subtotal(lines))))
          else
            Reply(t.(items := s.items), Response(200, OrderCreated(orderId, Subtotal(lines))))
  }

  /** Which storage statement of the route's verify fails. The stock update
      runs without a callback, so its failure is never reported. */
  datatype RouteFault = NoFault | StatusUpdateFails | StockUpdateFails

  /** Whether the route's verify answers 200: the provider reports the
      payment COMPLETED and the status update on `orders` succeeds. */
  predicate RouteVerifyAnswers(s: Store, answer: ProviderAnswer, fault: RouteFault) {
    answer == ProviderStatus("COMPLETED") && fault != StatusUpdateFails && s.schema.ordersTable
  }

  /** Whether the route's stock update, which reads `order_items` and writes
      `products`, takes effect. */
  predicate RouteStockApplies(s: Store, fault: RouteFault) {
    fault != StockUpdateFails && s.schema.productsTable && s.schema.itemsTable
  }

  /** Route POST /verify-payment: the status update and the stock update are
      separate statements; only the first one's error reaches the client. */
  function RouteVerify(s: Store, orderId: string, paypalOrderId: Option<string>, answer: ProviderAnswer,
                       now: int, fault: RouteFault): (out: Reply)
    ensures answer.ProviderError? ==> out == Reply(s, Response(500, ErrorBody("Failed to verify payment")))
    ensures answer.ProviderStatus? && answer.status != "COMPLETED"
      ==> out == Reply(s, Response(400, ErrorBody("Payment not completed")))
    ensures answer == ProviderStatus("COMPLETED") && !RouteVerifyAnswers(s, answer, fault)
      ==> out == Reply(s, Response(500, ErrorBody("Failed to update order")))
    ensures out.response.status != 200 ==> out.store == s
    ensures out.response.status == 200 <==> RouteVerifyAnswers(s, answer, fault)
    ensures out.response.status == 200 ==> out.response.body == PaymentVerified
    ensures out.response.status == 200 && RouteStockApplies(s, fault)
      ==> PaymentApplied(s, out.store, orderId, paypalOrderId, now)
    ensures out.response.status == 200 && !RouteStockApplies(s, fault) ==>
      PaymentApplied(s, out.store.(products := VerifyDecrement(s.products, s.items, orderId)), orderId, paypalOrderId, now)
      && out.store.products == s.products
  {
    if answer.ProviderError? then Reply(s, Response(500, ErrorBody("Failed to verify payment")))
    else if answer.status != "COMPLETED" then Reply(s, Response(400, ErrorBody("Payment not completed")))
    else if fault == StatusUpdateFails || !s.schema.ordersTable then Reply(s, Response(500, ErrorBody("Failed to update order")))
    else
      var orders := CompleteOrder(s.orders, orderId, paypalOrderId, now);
      var products := if RouteStockApplies(s, fault) then VerifyDecrement(s.products, s.items, orderId) else s.products;
      Reply(s.(orders := orders, products := products), Response(200, PaymentVerified))
  }

  /** The `json_object` of one joined item row. */
  function ItemJson(it: OrderItem): JoinedItem {
    JoinedItem(Some(it.productName), Some(it.quantity), Some(it.price))
  }

  /** What `json_object` gives for the NULL columns of a LEFT JOIN that found
      no item row. */
  const NullItem: JoinedItem := JoinedItem(None, None, None)

  /** The `items` of the order lookup: one object per joined item row, or the
      single all-null object when the order has no rows. */
  function ItemsColumn(rows: seq<OrderItem>): (r: seq<JoinedItem>)
    ensures rows == [] ==> r == [NullItem]
    ensures rows != [] ==> |r| == |rows| && forall k :: 0 <= k < |rows| ==> r[k] == ItemJson(rows[k])
  {
    if rows == [] then [NullItem] else seq(|rows|, k requires 0 <= k < |rows| => ItemJson(rows[k]))
  }

  /** Route GET /:orderId: the order row left-joined with its item rows; the
      join needs both tables. */
  function GetOrder(s: Store, orderId: string, fault: bool): (out: Reply)
    ensures out.store == s
    ensures fault || !s.schema.ordersTable || !s.schema.itemsTable
      ==> out.response == Response(500, ErrorBody("Failed to fetch order"))
    ensures out.response.status == 404 <==>
      !fault && s.schema.ordersTable && s.schema.itemsTable && orderId !in s.orders
    ensures out.response.status == 200 <==>
      !fault && s.schema.ordersTable && s.schema.itemsTable && orderId in s.orders
    ensures out.response.status == 200 ==> out.response.body.OrderView?
    ensures out.response.status == 200 ==> out.response.body.order == s.orders[orderId]
    ensures out.response.status == 200 ==>
      out.response.body.items == ItemsColumn(ItemsOf(s.items, orderId))
    ensures out.response.status == 200 ==>
      (out.response.body.items == [NullItem] <==> forall it :: it in s.items ==> it.orderId != orderId)
    ensures out.response.status == 200 ==>
      forall it :: it in s.items && it.orderId == orderId ==> ItemJson(it) in out.response.body.items
    ensures out.response.status == 200 ==> forall j :: j in out.response.body.items && j != NullItem ==>
      exists it :: it in s.items && it.orderId == orderId && j == ItemJson(it)
  {
    if fault || !s.schema.ordersTable || !s.schema.itemsTable then Reply(s, Response(500, ErrorBody("Failed to fetch order")))
    else if orderId !in s.orders then Reply(s, Response(404, ErrorBody("Order not found")))
    else
      var rows := ItemsOf(s.items, orderId);
      assert forall it :: it in rows <==> it in s.items && it.orderId == orderId;
      assert forall k :: 0 <= k < |rows| ==> rows[k] in rows;
      assert rows != [] ==> rows[0] in s.items && rows[0].orderId == orderId && ItemsColumn(rows) != [NullItem];
      Reply(s, Response(200, OrderView(s.orders[orderId], ItemsColumn(rows))))
  }
}

=== FILE: setup.dfy ===
/** Schema creation, seeding and the `shipping_amount` migration, as
    operations over the abstract schema record. Statements run outside any
    transaction, so a failing statement stops the sequence but keeps what
    ran before it. */
module Setup {
  import opened Wrappers
  import opened Store
  import opened Http

  /** The five seeded coffees, in insertion order. */
  const SeedNames: seq<string> := ["Ethiopia", "Guatemala", "Nicaragua", "Vagabond", "Decaf"]

  /** The seed rows, with ids drawn from the id sequence starting at `next`. */
  function SeedRows(next: int): (r: seq<Product>)
    ensures |r| == |SeedNames|
    ensures forall k :: 0 <= k < |r| ==>
      r[k] == Product(next + k, SeedNames[k], SeedPrice, DefaultStock)
  {
    seq(|SeedNames|, k requires 0 <= k < |SeedNames| => Product(next + k, SeedNames[k], SeedPrice, DefaultStock))
  }

  /** Insert the seed rows when, and only when, the products table is empty. */
  function SeedIfEmpty(s: Store): (t: Store)
    ensures s.products != [] ==> t == s
    ensures s.products == [] ==>
      t == s.(products := SeedRows(s.nextProductId), nextProductId := s.nextProductId + |SeedNames|)
  {
    if s.products == [] then
      s.(products := SeedRows(s.nextProductId), nextProductId := s.nextProductId + |SeedNames|)
    else s
  }

  /** `ALTER TABLE orders ADD COLUMN shipping_amount DECIMAL(10,2) DEFAULT 5.00`:
      the default is stored in every existing row. */
  function AddShippingColumn(s: Store): (t: Store)
    ensures t.schema == s.schema.(shippingColumn := true)
    ensures t.products == s.products && t.items == s.items && t.nextProductId == s.nextProductId
    ensures t.orders.Keys == s.orders.Keys
    ensures forall o :: o in s.orders ==> t.orders[o] == s.orders[o].(shipping := Some(DefaultShipping))
  {
    s.(schema := s.schema.(shippingColumn := true),
       orders := map o | o in s.orders :: s.orders[o].(shipping := Some(DefaultShipping)))
  }

  /** The orders whose `shipping_amount` is NULL. */
  function NullShipping(orders: map<string, Order>): (r: set<string>)
    ensures forall o :: o in r <==> o in orders && orders[o].shipping.None?
  {
    set o | o in orders && orders[o].shipping.None?
  }

  /** `UPDATE orders SET shipping_amount = 5.00 WHERE shipping_amount IS NULL`,
      with the number of rows it touched. */
  function BackFill(s: Store): (r: (Store, nat))
    ensures r.1 == |NullShipping(s.orders)|
    ensures r.0.schema == s.schema && r.0.products == s.products && r.0.items == s.items
    ensures r.0.nextProductId == s.nextProductId && r.0.orders.Keys == s.orders.Keys
    ensures forall o :: o in s.orders ==>
      r.0.orders[o] == if s.orders[o].shipping.None? then s.orders[o].(shipping := Some(DefaultShipping)) else s.orders[o]
  {
    var orders := map o | o in s.orders ::
      if s.orders[o].shipping.None? then s.orders[o].(shipping := Some(DefaultShipping)) else s.orders[o];
    (s.(orders := orders), |NullShipping(s.orders)|)
  }

  // ---------------------------------------------------------------------------
  // lib/db.js

  /** The statement of `initializeDatabase` that raises an error, if any. */
  datatype InitStep = CreateProducts | CreateOrders | CheckColumn | CreateItems | CountProducts

  /** `initializeDatabase`: create each missing table (a new `orders` table
      already has `shipping_amount`), add the column to an older `orders`
      table (a failure there is swallowed), create `order_items`, and seed an
      empty catalog. Any other failure stops the sequence and is logged, never
      rethrown. */
  function InitPostgres(s: Store, fail: Option<InitStep>): (t: Store)
    ensures fail.None? ==> TablesReady(t) && t.schema.shippingColumn
    ensures fail.None? ==> t.products == (if s.products == [] then SeedRows(s.nextProductId) else s.products)
    ensures t.items == s.items && t.orders.Keys == s.orders.Keys
    ensures fail == Some(CreateProducts) ==> t == s
  {
    if fail == Some(CreateProducts) then s
    else
      var s1 := s.(schema := s.schema.(productsTable := true));
      if fail == Some(CreateOrders) then s1
      else
        var s2 := if s1.schema.ordersTable then s1
                  else s1.(schema := s1.schema.(ordersTable := true, shippingColumn := true));
        var s3 := if s2.schema.shippingColumn || fail == Some(CheckColumn) then s2 else AddShippingColumn(s2);
        var s4 := s3.(schema := s3.schema.(itemsTable := true));
        if fail == Some(CreateItems) then s3
        else if fail == Some(CountProducts) then s4
        else SeedIfEmpty(s4)
  }

  // ---------------------------------------------------------------------------
  // database/init.js

  /** `initialize` for the embedded database: the same tables without
      `shipping_amount`, and the same seed-if-empty. */
  function InitSqlite(s: Store): (t: Store)
    ensures TablesReady(t)
    ensures t.schema.shippingColumn <==> s.schema.ordersTable && s.schema.shippingColumn
    ensures t.products == (if s.products == [] then SeedRows(s.nextProductId) else s.products)
    ensures t.orders == s.orders && t.items == s.items
  {
    var column := s.schema.ordersTable && s.schema.shippingColumn;
    var s1 := s.(schema := Schema(true, true, true, column));
    SeedIfEmpty(s1)
  }

  // ---------------------------------------------------------------------------
  // api/migrate-db.js and fix-database.js

  /** The statement of the migration that raises an error, if any. */
  datatype MigrationStep = ColumnCheck | AlterTable | BackFillUpdate

  /** The migration steps shared by the endpoint and the script: the store
      afterwards and what happened. */
  datatype MigrationOutcome = AddedColumn(updated: nat) | AlreadyPresent | MigrationFailed

  /** The migration fails before changing anything: the column check
      fails, or the check finds no column and the ALTER fails (as it does
      when there is no `orders` table). */
  predicate FailsBeforeAlter(s: Store, fail: Option<MigrationStep>) {
    || fail == Some(ColumnCheck)
    || !s.schema.ordersTable
    || (!s.schema.shippingColumn && fail == Some(AlterTable))
  }

  /** The column check finds `shipping_amount` in `information_schema`,
      which lists it only as a column of an existing `orders` table. */
  predicate ColumnFound(s: Store) {
    s.schema.ordersTable && s.schema.shippingColumn
  }

  /** The column is added and then the back-fill update fails. */
  predicate FailsAfterAlter(s: Store, fail: Option<MigrationStep>) {
    && fail == Some(BackFillUpdate) && !s.schema.shippingColumn && s.schema.ordersTable
  }

  function Migrate(s: Store, fail: Option<MigrationStep>): (r: (Store, MigrationOutcome))
    ensures r.1 == AlreadyPresent <==> fail != Some(ColumnCheck) && ColumnFound(s)
    ensures r.1 == MigrationFailed <==> FailsBeforeAlter(s, fail) || FailsAfterAlter(s, fail)
    ensures FailsBeforeAlter(s, fail) ==> r.0 == s
    ensures FailsAfterAlter(s, fail) ==> r.0 == AddShippingColumn(s)
    ensures r.1 == AlreadyPresent ==> r.0 == s
    ensures r.1.AddedColumn? ==> r.0.schema == s.schema.(shippingColumn := true) && r.0.orders.Keys == s.orders.Keys
    ensures r.1.AddedColumn? ==>
      forall o :: o in s.orders ==> r.0.orders[o] == s.orders[o].(shipping := Some(DefaultShipping))
    ensures r.0.products == s.products && r.0.items == s.items
  {
    if fail == Some(ColumnCheck) then (s, MigrationFailed)
    else if ColumnFound(s) then (s, AlreadyPresent)
    else if !s.schema.ordersTable || fail == Some(AlterTable) then (s, MigrationFailed)
    else
      var t := AddShippingColumn(s);
      if fail == Some(BackFillUpdate) then (t, MigrationFailed)
      else
        var (u, n) := BackFill(t);
        (u, AddedColumn(n))
  }

  /** POST /api/migrate-db. A failure after the column was added still
      answers 500, with the column kept. */
  function MigrateDb(s: Store, m: Method, fail: Option<MigrationStep>): (out: Reply)
    ensures m != Post ==> out == Reply(s, MethodNotAllowed)
    ensures m == Post && fail.None? && s.schema.ordersTable ==> out.response.status == 200
    ensures m == Post && FailsBeforeAlter(s, fail) ==> out == Reply(s, Response(500, ErrorBody("Migration failed")))
    ensures m == Post && FailsAfterAlter(s, fail)
      ==> out == Reply(AddShippingColumn(s), Response(500, ErrorBody("Migration failed")))
    ensures out.store.products == s.products && out.store.items == s.items
    ensures m == Post && ColumnFound(s) && fail != Some(ColumnCheck) ==>
      out == Reply(s, Response(200, MigrationNotNeeded))
    ensures m == Post && fail.None? && s.schema.ordersTable && !s.schema.shippingColumn ==>
      out == Reply(AddShippingColumn(s), Response(200, Migrated(true, 0)))
    ensures out.response.body.Migrated? ==> out.store == AddShippingColumn(s)
    ensures out.response.status == 200 && out.response.body.Migrated? ==>
      out.response.body.columnAdded && out.store.schema.shippingColumn && !s.schema.shippingColumn
      && out.response.body.ordersUpdated == |NullShipping(AddShippingColumn(s).orders)|
  {
    if m != Post then Reply(s, MethodNotAllowed)
    else
      var (t, outcome) := Migrate(s, fail);
      match outcome
      case AlreadyPresent => Reply(t, Response(200, MigrationNotNeeded))
      case AddedColumn(n) =>
        BackFillAfterAlter(s);
        Reply(t, Response(200, Migrated(true, n)))
      case MigrationFailed => Reply(t, Response(500, ErrorBody("Migration failed")))
  }

  /** `fixDatabase`: the same migration as a script; failures are logged. */
  function FixDatabase(s: Store, fail: Option<MigrationStep>): (t: Store)
    ensures s.schema.shippingColumn ==> t == s
    ensures t.products == s.products && t.items == s.items && t.orders.Keys == s.orders.Keys
    ensures fail.None? && s.schema.ordersTable && !s.schema.shippingColumn ==>
      && t.schema == s.schema.(shippingColumn := true)
      && forall o :: o in s.orders ==> t.orders[o] == s.orders[o].(shipping := Some(DefaultShipping))
    ensures FailsBeforeAlter(s, fail) ==> t == s
    ensures FailsAfterAlter(s, fail) ==> t == AddShippingColumn(s)
  {
    Migrate(s, fail).0
  }

  // ---------------------------------------------------------------------------
  // Properties across calls

  /** Initialising twice is initialising once. */
  lemma InitPostgresIdempotent(s: Store)
    ensures InitPostgres(InitPostgres(s, None), None) == InitPostgres(s, None)
  {
  }

  lemma InitSqliteIdempotent(s: Store)
    ensures InitSqlite(InitSqlite(s)) == InitSqlite(s)
  {
  }

  /** The migration is idempotent: a second run finds the column and changes nothing. */
  lemma MigrateIdempotent(s: Store)
    ensures var first := MigrateDb(s, Post, None);
      MigrateDb(first.store, Post, None) == Reply(first.store, Response(200, MigrationNotNeeded))
        || first.response.status == 500
  {
  }

  lemma FixDatabaseIdempotent(s: Store)
    ensures FixDatabase(FixDatabase(s, None), None) == FixDatabase(s, None)
  {
  }

  /** Because adding the column already stores the default in every existing
      row, the back-fill that follows never finds a NULL: the endpoint always
      reports zero updated orders. */
  lemma MigrationUpdatesNoOrders(s: Store, fail: Option<MigrationStep>)
    ensures var r := MigrateDb(s, Post, fail).response;
      r.body.Migrated? ==> r.body.ordersUpdated == 0
  {
    var t := AddShippingColumn(s);
    assert NullShipping(t.orders) == {};
  }

  lemma AddShippingColumnKeepsWellFormed(s: Store)
    requires WellFormed(s) && s.schema.ordersTable
    ensures WellFormed(AddShippingColumn(s))
  {
    var t := AddShippingColumn(s);
    assert forall o :: o in t.orders ==> t.orders[o].total == s.orders[o].total;
  }

  lemma SeedKeepsWellFormed(s: Store)
    requires WellFormed(s) && s.schema.productsTable
    ensures WellFormed(SeedIfEmpty(s))
  {
  }

  /** Creating missing tables keeps the store invariants. */
  lemma CreateTablesKeepsWellFormed(s: Store, products: bool, orders: bool, items: bool)
    requires WellFormed(s)
    ensures WellFormed(s.(schema := s.schema.(productsTable := s.schema.productsTable || products,
                                            ordersTable := s.schema.ordersTable || orders,
                                            itemsTable := s.schema.itemsTable || items)))
  {
  }

  /** Initialisation keeps the store invariants. */
  lemma InitPostgresKeepsWellFormed(s: Store, fail: Option<InitStep>)
    requires WellFormed(s)
    ensures WellFormed(InitPostgres(s, fail))
  {
    if fail != Some(CreateProducts) {
      var s1 := s.(schema := s.schema.(productsTable := true));
      CreateTablesKeepsWellFormed(s, true, false, false);
      if fail != Some(CreateOrders) {
        var s2 := if s1.schema.ordersTable then s1
                  else s1.(schema := s1.schema.(ordersTable := true, shippingColumn := true));
        assert WellFormed(s2);
        var s3 := if s2.schema.shippingColumn || fail == Some(CheckColumn) then s2 else AddShippingColumn(s2);
        if !(s2.schema.shippingColumn || fail == Some(CheckColumn)) {
          AddShippingColumnKeepsWellFormed(s2);
        }
        var s4 := s3.(schema := s3.schema.(itemsTable := true));
        CreateTablesKeepsWellFormed(s3, false, false, true);
        if fail != Some(CreateItems) && fail != Some(CountProducts) {
          SeedKeepsWellFormed(s4);
        }
      }
    }
  }

  lemma InitSqliteKeepsWellFormed(s: Store)
    requires WellFormed(s)
    ensures WellFormed(InitSqlite(s))
  {
    var s1 := s.(schema := Schema(true, true, true, s.schema.ordersTable && s.schema.shippingColumn));
    assert WellFormed(s1);
    SeedKeepsWellFormed(s1);
  }

  /** The migration, whichever step fails, keeps the store invariants. */
  lemma MigrateKeepsWellFormed(s: Store, fail: Option<MigrationStep>)
    requires WellFormed(s)
    ensures WellFormed(Migrate(s, fail).0)
  {
    if fail != Some(ColumnCheck) && !s.schema.shippingColumn && s.schema.ordersTable && fail != Some(AlterTable) {
      AddShippingColumnKeepsWellFormed(s);
      BackFillAfterAlter(s);
    }
  }

  /** Right after the column is added no order lacks a shipping amount, so
      the back-fill is a no-op that reports zero rows. */
  lemma BackFillAfterAlter(s: Store)
    ensures BackFill(AddShippingColumn(s)) == (AddShippingColumn(s), 0)
  {
    var t := AddShippingColumn(s);
    assert NullShipping(t.orders) == {};
    assert BackFill(t).0.orders == t.orders;
  }

  /** From an empty database, initialisation yields exactly the five seeded
      coffees at 22.00 with 100 in stock and no orders. */
  lemma InitFromEmpty()
    ensures var t := InitPostgres(Empty, None);
      && TablesReady(t) && t.orders == map[] && t.items == []
      && |t.products| == 5
      && forall i :: 0 <= i < 5 ==>
           t.products[i].name == SeedNames[i] && t.products[i].price == 2200 && t.products[i].stock == 100
  {
  }
}

=== FILE: store.dfy ===
/** The relational store behind the storefront: the `products`, `orders` and
    `order_items` tables, plus a record of which parts of the schema exist.

    Money is kept in integer cents throughout (the source's DECIMAL(10,2)
    22.00 is 2200 here). Stock is an unbounded `int`: the source never stops
    it from going negative. */
module Store {
  import opened Wrappers

  /** Unit price given to every seeded product (22.00). */
  const SeedPrice: int := 2200
  /** Column default of `products.stock_quantity`. */
  const DefaultStock: int := 100
  /** Column default of `orders.shipping_amount` (5.00). */
  const DefaultShipping: int := 500

  /** One row of `products`. */
  datatype Product = Product(id: int, name: string, price: int, stock: int)

  datatype Status = Pending | Completed

  /** One row of `orders`, keyed by its `order_id`. `shipping` is None when the
      `shipping_amount` column is absent or NULL; `completedAt` is NULL until
      the order is completed. */
  datatype Order = Order(
    email: string,
    name: string,
    total: int,
    status: Status,
    paypalOrderId: Option<string>,
    shipping: Option<int>,
    createdAt: int,
    completedAt: Option<int>)

  /** One row of `order_items`; name and price are snapshots taken at order time. */
  datatype OrderItem = OrderItem(orderId: string, productId: int, productName: string, quantity: int, price: int)

  /** Which tables exist and whether `orders` carries `shipping_amount`. */
  datatype Schema = Schema(productsTable: bool, ordersTable: bool, itemsTable: bool, shippingColumn: bool)

  /** The whole database. `products` is kept in insertion order, which is the
      order a sequential scan returns rows in; `nextProductId` is the next
      value of the SERIAL id sequence. */
  datatype Store = Store(
    schema: Schema,
    products: seq<Product>,
    orders: map<string, Order>,
    items: seq<OrderItem>,
    nextProductId: int)

  /** An empty database with no tables at all. */
  const Empty: Store := Store(Schema(false, false, false, false), [], map[], [], 1)

  /** A requested item resolved against a product row: the row's id, name and
      price snapshot, and the requested quantity. */
  datatype Line = Line(productId: int, productName: string, quantity: int, price: int)

  predicate TablesReady(s: Store) {
    s.schema.productsTable && s.schema.ordersTable && s.schema.itemsTable
  }

  /** Sum of price x quantity over resolved lines. */
  function Subtotal(lines: seq<Line>): int {
    if lines == [] then 0 else lines[0].price * lines[0].quantity + Subtotal(lines[1..])
  }

  /** Sum of price x quantity over `order_items` rows. */
  function ItemsCost(items: seq<OrderItem>): int {
    if items == [] then 0 else items[0].price * items[0].quantity + ItemsCost(items[1..])
  }

  /** The `order_items` rows belonging to one order, in insertion order. */
  function ItemsOf(items: seq<OrderItem>, orderId: string): (r: seq<OrderItem>)
    ensures forall it :: it in r <==> it in items && it.orderId == orderId
    ensures |r| <= |items|
  {
    if items == [] then []
    else (if items[0].orderId == orderId then [items[0]] else []) + ItemsOf(items[1..], orderId)
  }

  /** The selection holds every row of the order as often as it is stored,
      and no other row. */
  lemma {:induction false} ItemsOfCounts(items: seq<OrderItem>, orderId: string)
    ensures forall it :: multiset(ItemsOf(items, orderId))[it] == if it.orderId == orderId then multiset(items)[it] else 0
  {
    if items != [] {
      assert items == [items[0]] + items[1..];
      ItemsOfCounts(items[1..], orderId);
    }
  }

  /** The rows written for one order's lines. */
  function ToItems(orderId: string, lines: seq<Line>): (r: seq<OrderItem>)
    ensures |r| == |lines|
    ensures forall k :: 0 <= k < |lines| ==>
      r[k] == OrderItem(orderId, lines[k].productId, lines[k].productName, lines[k].quantity, lines[k].price)
  {
    if lines == [] then []
    else [OrderItem(orderId, lines[0].productId, lines[0].productName, lines[0].quantity, lines[0].price)]
         + ToItems(orderId, lines[1..])
  }

  ghost predicate UniqueIds(products: seq<Product>) {
    forall i, j :: 0 <= i < j < |products| ==> products[i].id != products[j].id
  }

  /** The store invariants the schema and the handlers keep together. */
  ghost predicate WellFormed(s: Store) {
    && UniqueIds(s.products)
    && (forall i :: 0 <= i < |s.products| ==> s.products[i].id < s.nextProductId)
    // order_items.order_id references orders(order_id)
    && (forall i :: 0 <= i < |s.items| ==> s.items[i].orderId in s.orders)
    // an order's line items add up to its recorded total
    && (forall o :: o in s.orders ==> s.orders[o].total == ItemsCost(ItemsOf(s.items, o)))
    // completed_at is set exactly when the order is completed
    && (forall o :: o in s.orders ==> (s.orders[o].status == Completed <==> s.orders[o].completedAt.Some?))
    // shipping_amount holds a value exactly when the column exists
    && (forall o :: o in s.orders ==> (s.orders[o].shipping.Some? <==> s.schema.shippingColumn))
    // shipping_amount is a column of the orders table
    && (s.schema.shippingColumn ==> s.schema.ordersTable)
    && (!s.schema.productsTable ==> s.products == [])
    && (!s.schema.ordersTable ==> s.orders == map[])
    && (!s.schema.itemsTable ==> s.items == [])
  }

  lemma {:induction false} ItemsOfAppend(a: seq<OrderItem>, b: seq<OrderItem>, o: string)
    ensures ItemsOf(a + b, o) == ItemsOf(a, o) + ItemsOf(b, o)
  {
    if a == [] {
      assert a + b == b;
    } else {
      assert (a + b)[1..] == a[1..] + b;
      ItemsOfAppend(a[1..], b, o);
    }
  }

  lemma {:induction false} ItemsCostAppend(a: seq<OrderItem>, b: seq<OrderItem>)
    ensures ItemsCost(a + b) == ItemsCost(a) + ItemsCost(b)
  {
    if a == [] {
      assert a + b == b;
    } else {
      assert (a + b)[1..] == a[1..] + b;
      ItemsCostAppend(a[1..], b);
    }
  }

  /** The rows written for an order cost exactly the lines' subtotal. */
  lemma {:induction false} ToItemsCost(orderId: string, lines: seq<Line>)
    ensures ItemsCost(ToItems(orderId, lines)) == Subtotal(lines)
  {
    if lines != [] {
      var r := ToItems(orderId, lines);
      assert r[1..] == ToItems(orderId, lines[1..]);
      ToItemsCost(orderId, lines[1..]);
    }
  }

  /** Selecting an order's rows out of the rows just written for it gives them all back. */
  lemma {:induction false} ItemsOfToItems(orderId: string, lines: seq<Line>, o: string)
    ensures ItemsOf(ToItems(orderId, lines), o) == if o == orderId then ToItems(orderId, lines) else []
  {
    if lines != [] {
      var r := ToItems(orderId, lines);
      assert r[1..] == ToItems(orderId, lines[1..]);
      ItemsOfToItems(orderId, lines[1..], o);
    }
  }

  lemma {:induction false} ItemsOfNone(items: seq<OrderItem>, o: string)
    requires forall i :: 0 <= i < |items| ==> items[i].orderId != o
    ensures ItemsOf(items, o) == []
  {
    if items != [] {
      ItemsOfNone(items[1..], o);
    }
  }
}

=== FILE: validation.dfy ===
/** Request validation for the order, payment and stock endpoints: each rule
    chain runs on its field, every failing rule adds one violation, and the
    request is rejected with the whole list when it is not empty.

    A body field is an `Option<string>`: None is an absent field, and
    `Some(t)` a present one whose string form is `t`, the text the rules run
    on (a string is itself, a number its decimal text, null the empty
    string). An absent field reads as "" too; only `optional()` tells the two
    apart. */
module Validation {
  import opened Wrappers
  import Forms

  /** The five product names the order validators accept. */
  const CatalogNames: set<string> := {"Ethiopia", "Guatemala", "Nicaragua", "Vagabond", "Decaf"}

  datatype RawItem = RawItem(name: Option<string>, quantity: Option<string>)

  datatype ItemsField = ItemsArray(elems: seq<RawItem>) | ItemsNotArray

  /** The body fields read by the order validator. */
  datatype RawOrder = RawOrder(items: ItemsField, customerEmail: Option<string>, customerName: Option<string>)

  /** The body fields read by the payment validator: the order fields plus the
      PayPal order id and the optional shipping cost. */
  datatype RawPayment = RawPayment(order: RawOrder, paypalOrderId: Option<string>, shippingCost: Option<string>)

  /** One failed rule; item rules carry the index of the offending item. */
  datatype Violation =
    | EmptyItems
    | BadProductName(index: nat)
    | BadQuantity(index: nat)
    | BadEmail
    | BadNameLength
    | BadNameCharacters
    | BadPaypalOrderId
    | BadShippingCost
    | BadStockQuantity

  /** What the error-collecting middleware decides. */
  datatype Gate = Proceed | Reject(errors: seq<Violation>)

  // ---------------------------------------------------------------------------
  // Character classes and string sanitisers

  /** The characters JavaScript's `trim` removes and `\s` matches. */
  predicate IsSpace(c: char) {
    || c == ' ' || ('\t' <= c <= '\r')
    || c == '\U{00A0}' || c == '\U{1680}' || ('\U{2000}' <= c <= '\U{200A}')
    || c == '\U{2028}' || c == '\U{2029}' || c == '\U{202F}' || c == '\U{205F}'
    || c == '\U{3000}' || c == '\U{FEFF}'
  }

  /** The class `[a-zA-Z\s\-']` of the name rule. */
  predicate IsNameChar(c: char) {
    ('a' <= c <= 'z') || ('A' <= c <= 'Z') || IsSpace(c) || c == '-' || c == '\''
  }

  /** The class `[A-Z0-9]` of the PayPal order id rule. */
  predicate IsIdChar(c: char) {
    ('A' <= c <= 'Z') || ('0' <= c <= '9')
  }

  function TrimStart(s: string): string {
    if s != [] && IsSpace(s[0]) then TrimStart(s[1..]) else s
  }

  function TrimEnd(s: string): string {
    if s != [] && IsSpace(s[|s| - 1]) then TrimEnd(s[..|s| - 1]) else s
  }

  /** JavaScript's `String.prototype.trim`. */
  function Trim(s: string): string {
    TrimEnd(TrimStart(s))
  }

  /** `TrimStart` drops exactly the leading whitespace. */
  lemma {:induction false} TrimStartSpec(s: string)
    ensures |TrimStart(s)| <= |s| && TrimStart(s) == s[|s| - |TrimStart(s)|..]
    ensures TrimStart(s) == [] || !IsSpace(TrimStart(s)[0])
    ensures forall k :: 0 <= k < |s| - |TrimStart(s)| ==> IsSpace(s[k])
  {
    if s != [] && IsSpace(s[0]) {
      var t := s[1..];
      TrimStartSpec(t);
      var r := TrimStart(t);
      assert TrimStart(s) == r;
      assert r == t[|t| - |r|..] == s[|s| - |r|..];
      forall k | 0 <= k < |s| - |r| ensures IsSpace(s[k]) {
        if k > 0 {
          assert s[k] == t[k - 1];
        }
      }
    }
  }

  /** `TrimEnd` drops exactly the trailing whitespace. */
  lemma {:induction false} TrimEndSpec(s: string)
    ensures |TrimEnd(s)| <= |s| && TrimEnd(s) == s[..|TrimEnd(s)|]
    ensures TrimEnd(s) == [] || !IsSpace(TrimEnd(s)[|TrimEnd(s)| - 1])
    ensures forall k :: |TrimEnd(s)| <= k < |s| ==> IsSpace(s[k])
  {
    if s != [] && IsSpace(s[|s| - 1]) {
      var t := s[..|s| - 1];
      TrimEndSpec(t);
      var r := TrimEnd(t);
      assert TrimEnd(s) == r;
      assert r == t[..|r|] == s[..|r|];
      forall k | |r| <= k < |s| ensures IsSpace(s[k]) {
        if k < |s| - 1 {
          assert s[k] == t[k];
        }
      }
    }
  }

  /** `r` is the slice of `s` starting at `i`, and everything cut off on
      either side is whitespace. */
  ghost predicate SliceAmidSpace(s: string, r: string, i: int) {
    && 0 <= i <= |s| - |r| && r == s[i..i + |r|]
    && (forall k :: 0 <= k < i ==> IsSpace(s[k]))
    && (forall k :: i + |r| <= k < |s| ==> IsSpace(s[k]))
  }

  /** Trimming yields the middle part of `s` that neither starts nor ends
      with whitespace, everything cut off being whitespace. */
  lemma TrimSpec(s: string)
    ensures var r := Trim(s);
      && (r == [] || (!IsSpace(r[0]) && !IsSpace(r[|r| - 1])))
      && exists i :: SliceAmidSpace(s, r, i)
  {
    var a := TrimStart(s);
    var r := Trim(s);
    TrimStartSpec(s);
    TrimEndSpec(a);
    assert r == s[|s| - |a|..][..|r|] == s[|s| - |a|..|s| - |a| + |r|];
    assert SliceAmidSpace(s, r, |s| - |a|);
  }

  /** A string with no surrounding whitespace is its own trim. */
  lemma TrimOfTrimmed(s: string)
    requires s == [] || (!IsSpace(s[0]) && !IsSpace(s[|s| - 1]))
    ensures Trim(s) == s
  {
    assert TrimStart(s) == s;
  }

  /** Trimming twice is trimming once. */
  lemma TrimIdempotent(s: string)
    ensures Trim(Trim(s)) == Trim(s)
  {
    TrimSpec(s);
    TrimOfTrimmed(Trim(s));
  }

  /** Drops the rest of a tag, up to and including its closing `>`; an
      unterminated tag swallows the rest of the input. */
  function SkipTag(s: string): (r: string)
    ensures |r| <= |s|
  {
    if s == [] then []
    else if s[0] == '>' then s[1..]
    else SkipTag(s[1..])
  }

  /** Removes every `<...>` tag and keeps the text between tags: a small
      stand-in for the HTML purifier run with no allowed tags. */
  function StripTags(s: string): string
    decreases |s|
  {
    if s == [] then []
    else if s[0] == '<' then StripTags(SkipTag(s[1..]))
    else [s[0]] + StripTags(s[1..])
  }

  /** No tag opener survives stripping, and text without one is untouched. */
  lemma {:induction false} StripTagsSpec(s: string)
    ensures '<' !in StripTags(s)
    ensures '<' !in s ==> StripTags(s) == s
    decreases |s|
  {
    if s == [] {
    } else if s[0] == '<' {
      StripTagsSpec(SkipTag(s[1..]));
    } else {
      StripTagsSpec(s[1..]);
    }
  }

  /** Text before a tag is kept, the tag itself is dropped, and stripping
      goes on after it. */
  lemma {:induction false} StripTagsDropsTag(a: string, t: string, b: string)
    requires '<' !in a && '>' !in t
    ensures StripTags(a + "<" + t + ">" + b) == a + StripTags(b)
    decreases |a|
  {
    if a == [] {
      assert a + "<" + t + ">" + b == "<" + (t + ">" + b);
      SkipTagThrough(t, b);
    } else {
      assert (a + "<" + t + ">" + b)[1..] == a[1..] + "<" + t + ">" + b;
      StripTagsDropsTag(a[1..], t, b);
    }
  }

  /** A tag body without `>` is skipped up to and including its `>`. */
  lemma {:induction false} SkipTagThrough(t: string, b: string)
    requires '>' !in t
    ensures SkipTag(t + ">" + b) == b
  {
    if t == [] {
      assert t + ">" + b == ">" + b;
    } else {
      assert (t + ">" + b)[1..] == t[1..] + ">" + b;
      SkipTagThrough(t[1..], b);
    }
  }

  /** The exported `sanitizeInput`: a non-string (None here) is returned
      unchanged, a string loses its tags and surrounding whitespace; a string
      without tags is only trimmed. */
  function SanitizeInput(v: Option<string>): (r: Option<string>)
    ensures v.None? <==> r.None?
    ensures v.Some? && '<' !in v.value ==> r == Some(Trim(v.value))
  {
    match v
    case None => None
    case Some(s) =>
      StripTagsSpec(s);
      Some(Trim(StripTags(s)))
  }

  /** Tags are removed and the text around them kept: "a<b>c" keeps "ac". */
  lemma SanitizeKeepsText()
    ensures SanitizeInput(Some("a<b>c")) == Some("ac")
  {
    assert "a" + "<" + "b" + ">" + "c" == "a<b>c";
    StripTagsDropsTag("a", "b", "c");
    assert StripTags("c") == "c";
    assert StripTags("a<b>c") == "ac";
    TrimOfTrimmed("ac");
  }

  /** A sanitised string holds no tag opener and no surrounding whitespace. */
  lemma SanitizeInputCleans(v: Option<string>)
    requires v.Some?
    ensures var t := SanitizeInput(v).value;
      && '<' !in t
      && (t == [] || (!IsSpace(t[0]) && !IsSpace(t[|t| - 1])))
  {
    var u := StripTags(v.value);
    StripTagsSpec(v.value);
    TrimSpec(u);
    var t := Trim(u);
    var i :| SliceAmidSpace(u, t, i);
  }

  /** Sanitising is idempotent. */
  lemma SanitizeIdempotent(v: Option<string>)
    ensures SanitizeInput(SanitizeInput(v)) == SanitizeInput(v)
  {
    if v.Some? {
      var t := SanitizeInput(v).value;
      SanitizeInputCleans(v);
      StripTagsSpec(t);
      TrimOfTrimmed(t);
    }
  }

  // ---------------------------------------------------------------------------
  // Field rules

  /** The string form a rule runs on; an absent field reads as "". */
  function Text(v: Option<string>): string {
    v.GetOr("")
  }

  /** `isInt({min, max})` on the field's string form. */
  predicate IsIntIn(v: Option<string>, lo: int, hi: int) {
    var n := Forms.ParseInt(Text(v));
    n.Some? && lo <= n.value <= hi
  }

  /** `isFloat({min, max})` on the field's string form. */
  predicate IsFloatIn(v: Option<string>, lo: real, hi: real) {
    var x := Forms.ParseFloat(Text(v));
    x.Some? && lo <= x.value <= hi
  }

  predicate ValidProductName(name: Option<string>) {
    Trim(Text(name)) in CatalogNames
  }

  predicate ValidQuantity(q: Option<string>) {
    IsIntIn(q, 1, 100)
  }

  /** A simplified e-mail shape: one `@` with a non-empty local part before it
      and a dotted domain after it, no whitespace anywhere. */
  predicate IsEmailShape(t: string) {
    exists i :: 0 < i < |t| && t[i] == '@'
      && (forall k :: 0 <= k < |t| && k != i ==> t[k] != '@' && !IsSpace(t[k]))
      && (exists j :: i + 1 < j < |t| - 1 && t[j] == '.')
  }

  /** `/^[a-zA-Z\s\-']+$/`. */
  predicate MatchesNameClass(t: string) {
    |t| >= 1 && forall k :: 0 <= k < |t| ==> IsNameChar(t[k])
  }

  /** The length rule runs on the trimmed raw name. */
  predicate NameLengthOk(name: Option<string>) {
    2 <= |Trim(Text(name))| <= 100
  }

  /** The character rule runs on the sanitised trimmed name. */
  predicate NameCharsOk(name: Option<string>) {
    MatchesNameClass(SanitizeInput(Some(Trim(Text(name)))).value)
  }

  /** `/^[A-Z0-9]{17}$/` on the trimmed PayPal order id. */
  predicate ValidPaypalOrderId(id: Option<string>) {
    var t := Trim(Text(id));
    |t| == 17 && forall k :: 0 <= k < |t| ==> IsIdChar(t[k])
  }

  /** `optional()` skips only an absent value. */
  predicate ValidShippingCost(c: Option<string>) {
    c.None? || IsFloatIn(c, 0.0, 100.0)
  }

  predicate ValidStockQuantity(q: Option<string>) {
    IsIntIn(q, 0, 10000)
  }

  // ---------------------------------------------------------------------------
  // Rule chains

  /** `items.*.name`: one violation per item, from `start` on, whose trimmed
      name is not in the catalog. */
  function NameChecks(elems: seq<RawItem>, start: nat): (r: seq<Violation>)
    requires start <= |elems|
    ensures forall v :: v in r ==> v.BadProductName? && start <= v.index < |elems|
    ensures forall k :: start <= k < |elems| ==>
      (BadProductName(k) in r <==> !ValidProductName(elems[k].name))
    decreases |elems| - start
  {
    if start == |elems| then []
    else (if ValidProductName(elems[start].name) then [] else [BadProductName(start)])
         + NameChecks(elems, start + 1)
  }

  /** `items.*.quantity`: one violation per item, from `start` on, whose
      quantity is not an integer in [1, 100]. */
  function QuantityChecks(elems: seq<RawItem>, start: nat): (r: seq<Violation>)
    requires start <= |elems|
    ensures forall v :: v in r ==> v.BadQuantity? && start <= v.index < |elems|
    ensures forall k :: start <= k < |elems| ==>
      (BadQuantity(k) in r <==> !ValidQuantity(elems[k].quantity))
    decreases |elems| - start
  {
    if start == |elems| then []
    else (if ValidQuantity(elems[start].quantity) then [] else [BadQuantity(start)])
         + QuantityChecks(elems, start + 1)
  }

  /** One rule's contribution: nothing when it holds, its violation otherwise. */
  function Check(ok: bool, v: Violation): (r: seq<Violation>)
    ensures forall x :: x in r <==> !ok && x == v
  {
    if ok then [] else [v]
  }

  /** `v` is reported by one of the `items`, `items.*.name` and
      `items.*.quantity` chains. */
  predicate ItemRuleFails(items: ItemsField, v: Violation) {
    match v
    case EmptyItems => !(items.ItemsArray? && |items.elems| >= 1)
    case BadProductName(k) => items.ItemsArray? && k < |items.elems| && !ValidProductName(items.elems[k].name)
    case BadQuantity(k) => items.ItemsArray? && k < |items.elems| && !ValidQuantity(items.elems[k].quantity)
    case _ => false
  }

  /** `v` is reported by the `customerEmail` or the `customerName` chain. */
  predicate CustomerRuleFails(email: Option<string>, name: Option<string>, v: Violation) {
    || (v == BadEmail && !IsEmailShape(Trim(Text(email))))
    || (v == BadNameLength && !NameLengthOk(name))
    || (v == BadNameCharacters && !NameCharsOk(name))
  }

  /** `v` is reported by one of the chains of `validateOrder`. */
  predicate OrderRuleFails(o: RawOrder, v: Violation) {
    ItemRuleFails(o.items, v) || CustomerRuleFails(o.customerEmail, o.customerName, v)
  }

  /** `v` is reported by one of the chains `validatePayment` adds. */
  predicate PaymentRuleFails(p: RawPayment, v: Violation) {
    || (v == BadPaypalOrderId && !ValidPaypalOrderId(p.paypalOrderId))
    || (v == BadShippingCost && !ValidShippingCost(p.shippingCost))
  }

  /** The violations of the item chains, names before quantities. */
  function ItemViolations(items: ItemsField): (r: seq<Violation>)
    ensures forall v :: v in r <==> ItemRuleFails(items, v)
  {
    var elems := if items.ItemsArray? then items.elems else [];
    var a := Check(items.ItemsArray? && |items.elems| >= 1, EmptyItems);
    var b := NameChecks(elems, 0);
    var c := QuantityChecks(elems, 0);
    assert forall v :: v in a + b + c <==> v in a || v in b || v in c;
    a + b + c
  }

  /** The violations of the `customerName` chain: its length rule and its
      character rule both run. */
  function NameViolations(name: Option<string>): (r: seq<Violation>)
    ensures forall v :: v in r <==>
      || (v == BadNameLength && !NameLengthOk(name))
      || (v == BadNameCharacters && !NameCharsOk(name))
  {
    Check(NameLengthOk(name), BadNameLength) + Check(NameCharsOk(name), BadNameCharacters)
  }

  /** The violations of the `customerEmail` and `customerName` chains. */
  function CustomerViolations(email: Option<string>, name: Option<string>): (r: seq<Violation>)
    ensures forall v :: v in r <==> CustomerRuleFails(email, name, v)
  {
    Check(IsEmailShape(Trim(Text(email))), BadEmail) + NameViolations(name)
  }

  /** `validateOrder` reports exactly the rules the request breaks, item
      rules first. */
  function ValidateOrder(o: RawOrder): (r: seq<Violation>)
    ensures forall v :: v in r <==> OrderRuleFails(o, v)
  {
    var a := ItemViolations(o.items);
    var b := CustomerViolations(o.customerEmail, o.customerName);
    assert forall v :: v in a + b <==> v in a || v in b;
    a + b
  }

  /** The violations of the two chains `validatePayment` adds. */
  function PaymentExtraViolations(p: RawPayment): (r: seq<Violation>)
    ensures forall v :: v in r <==> PaymentRuleFails(p, v)
  {
    Check(ValidPaypalOrderId(p.paypalOrderId), BadPaypalOrderId)
    + Check(ValidShippingCost(p.shippingCost), BadShippingCost)
  }

  /** `validatePayment` reports the order rules' violations and those of the
      PayPal id and shipping cost rules. */
  function ValidatePayment(p: RawPayment): (r: seq<Violation>)
    ensures forall v :: v in r <==> v in ValidateOrder(p.order) || PaymentRuleFails(p, v)
  {
    var a := ValidateOrder(p.order);
    var b := PaymentExtraViolations(p);
    assert forall v :: v in a + b <==> v in a || v in b;
    a + b
  }

  /** `validateStockUpdate`: `stock_quantity` must be an integer in [0, 10000]. */
  function ValidateStockUpdate(q: Option<string>): (r: seq<Violation>)
    ensures r == [] <==> ValidStockQuantity(q)
    ensures forall v :: v in r ==> v == BadStockQuantity
  {
    Check(ValidStockQuantity(q), BadStockQuantity)
  }

  /** `handleValidationErrors`: any collected violation rejects the request
      with the full list; none lets it through. */
  function HandleValidationErrors(errors: seq<Violation>): (g: Gate)
    ensures g.Proceed? <==> |errors| == 0
    ensures g.Reject? ==> g.errors == errors
  {
    if errors == [] then Proceed else Reject(errors)
  }

  // ---------------------------------------------------------------------------
  // Reference predicates and the properties tying the chains to them

  /** An order request every rule accepts, stated field by field. */
  ghost predicate ValidOrder(o: RawOrder) {
    && o.items.ItemsArray? && |o.items.elems| >= 1
    && (forall k :: 0 <= k < |o.items.elems| ==>
          ValidProductName(o.items.elems[k].name) && ValidQuantity(o.items.elems[k].quantity))
    && IsEmailShape(Trim(Text(o.customerEmail)))
    && NameLengthOk(o.customerName)
    && NameCharsOk(o.customerName)
  }

  /** A valid request breaks no rule. */
  lemma ValidOrderBreaksNoRule(o: RawOrder, v: Violation)
    requires ValidOrder(o)
    ensures !OrderRuleFails(o, v)
  {
  }

  /** An invalid request breaks some rule. */
  lemma InvalidOrderBreaksSomeRule(o: RawOrder) returns (v: Violation)
    requires !ValidOrder(o)
    ensures OrderRuleFails(o, v)
  {
    if !(o.items.ItemsArray? && |o.items.elems| >= 1) {
      v := EmptyItems;
    } else if k :| 0 <= k < |o.items.elems| && !ValidProductName(o.items.elems[k].name) {
      v := BadProductName(k);
    } else if k :| 0 <= k < |o.items.elems| && !ValidQuantity(o.items.elems[k].quantity) {
      v := BadQuantity(k);
    } else if !IsEmailShape(Trim(Text(o.customerEmail))) {
      v := BadEmail;
    } else if !NameLengthOk(o.customerName) {
      v := BadNameLength;
    } else {
      v := BadNameCharacters;
    }
  }

  /** The order validator lets a request through exactly when it is valid. */
  lemma ValidateOrderAccepts(o: RawOrder)
    ensures HandleValidationErrors(ValidateOrder(o)).Proceed? <==> ValidOrder(o)
  {
    var r := ValidateOrder(o);
    if ValidOrder(o) && r != [] {
      ValidOrderBreaksNoRule(o, r[0]);
    }
    if !ValidOrder(o) {
      var v := InvalidOrderBreaksSomeRule(o);
      assert v in r;
    }
  }

  /** The payment validator accepts exactly the valid orders that also carry a
      well-formed PayPal id and an acceptable shipping cost. */
  lemma ValidatePaymentAccepts(p: RawPayment)
    ensures HandleValidationErrors(ValidatePayment(p)).Proceed? <==>
      ValidOrder(p.order) && ValidPaypalOrderId(p.paypalOrderId) && ValidShippingCost(p.shippingCost)
  {
    ValidateOrderAccepts(p.order);
    var r := ValidatePayment(p);
    var o := ValidateOrder(p.order);
    if o != [] {
      assert o[0] in r;
    }
    if r != [] {
      assert OrderRuleFails(p.order, r[0]) || PaymentRuleFails(p, r[0]);
      if OrderRuleFails(p.order, r[0]) {
        assert r[0] in o;
      }
    }
    if !ValidPaypalOrderId(p.paypalOrderId) {
      assert PaymentRuleFails(p, BadPaypalOrderId);
    }
    if !ValidShippingCost(p.shippingCost) {
      assert PaymentRuleFails(p, BadShippingCost);
    }
  }

  /** The length rule sees the raw trimmed name and the character rule the
      sanitised one, so a name whose text between tags is a single letter is
      accepted although what is stored is shorter than two characters. */
  lemma NameLengthCheckedBeforeSanitising()
    ensures NameLengthOk(Some("<b>J</b>")) && NameCharsOk(Some("<b>J</b>"))
    ensures |SanitizeInput(Some("<b>J</b>")).value| < 2
  {
    var s := "<b>J</b>";
    assert Text(Some(s)) == s;
    TrimOfTrimmed(s);
    assert SkipTag(">J</b>") == "J</b>";
    assert SkipTag("b>J</b>") == "J</b>";
    assert SkipTag(">") == "";
    assert SkipTag("b>") == "";
    assert SkipTag("/b>") == "";
    assert StripTags("") == "";
    assert StripTags("</b>") == "";
    assert StripTags("J</b>") == "J";
    assert StripTags(s) == "J";
    TrimOfTrimmed("J");
    assert SanitizeInput(Some(s)) == Some("J");
    assert MatchesNameClass("J");
  }

  /** The numeric rules run on the string form, so "5" passes them as the
      number 5 does, and so does every integer's decimal text in range. */
  lemma NumericStringsAccepted(n: int)
    requires 1 <= n <= 100
    ensures ValidateStockUpdate(Some(Forms.IntText(n))) == []
    ensures ValidQuantity(Some(Forms.IntText(n)))
    ensures ValidShippingCost(Some(Forms.IntText(n)))
    ensures ValidateStockUpdate(Some("5")) == [] && ValidShippingCost(Some("2.50"))
  {
    Forms.IntTextIsFloat(n);
    assert Forms.ParseInt("5") == Some(5);
    Forms.FloatFraction();
  }

  /** Out-of-range, fractional and empty forms fail the stock rule. */
  lemma StockRuleRejects()
    ensures ValidateStockUpdate(Some("10001")) == [BadStockQuantity]
    ensures ValidateStockUpdate(Some("5.0")) == [BadStockQuantity]
    ensures ValidateStockUpdate(None) == [BadStockQuantity]
  {
    assert Forms.IntText(10001) == "10001" by {
      assert Forms.DigitsText(10001) == "10001" by {
        assert Forms.DigitsText(1000) == "1000" by {
          assert Forms.DigitsText(100) == "100" by {
            assert Forms.DigitsText(10) == "10";
          }
        }
      }
    }
    Forms.LenientIntForms();
  }

  /** A number sent as the customer name is checked in its string form: 42
      has the length the rule wants and only breaks the character rule. */
  lemma NumericNameBreaksOnlyCharacterRule()
    ensures NameViolations(Some("42")) == [BadNameCharacters]
  {
    TrimOfTrimmed("42");
    assert Trim(Text(Some("42"))) == "42";
    assert StripTags("2") == "2";
    assert StripTags("42") == "42";
    assert SanitizeInput(Some("42")) == Some("42");
    assert !IsNameChar("42"[0]);
  }
}

=== FILE: wrappers.dfy ===
/** The optional value used wherever the source has a nullable column or an
    absent request field. */
module Wrappers {

  datatype Option<+T> = None | Some(value: T) {

    /** The wrapped value, or `default` when there is none. */
    function GetOr(default: T): T {
      match this
      case Some(v) => v
      case None => default
    }
  }
}
